=== FILE: README.md ===
# A two-player stock game and its line chart, in Dafny

The game runs in a web page (game.js). Two players start with the same cash. Each day the stock price moves up or down by ten percent, never going below one cent, and is rounded to cents. Every player's total assets (cash plus shares at the day's price) are recorded once a day. Between days, either player may buy or sell whole shares at the current price; a request is given as a number of shares or as an amount of money. The game ends once the configured number of days has passed, and the richer player wins.

Three charts show the price history and each player's asset history. A small canvas line-chart class (simple-chart.js) draws them.

The model is functional:

- The page's `gameState` record is an immutable datatype. Each handler (`startGame`, `nextDay`, `executeTrade`, `endGame`) is a pure function from record to record.
- `SimpleChart.draw` is a pure function from the labels, the series and the canvas size to a `Scene`. A `Scene` is the grid lines, ticks and traces. `Render` lists the scene's canvas operations in the order `draw` makes them.
- The chart object's life (construction, window resizes, `update`, `destroy`) is a small state machine over a "listening" flag.

Money and geometry are Dafny `real`s. The page's `Math.round(x * 100) / 100` is `Money.RoundCents`: exact rounding to the nearest cent, with halves going up. `Math.random` is replaced by a boolean `isRise` parameter.

Modules, one file each:

| file | module | models |
|---|---|---|
| wrappers.dfy | `Wrappers` | `Option` |
| money.dfy | `Money` | rounding to cents, `Math.floor`, `Math.max`, `Math.min` |
| game.dfy | `Game` | the game record, `nextDay`, `endGame`, validity |
| setup.dfy | `Setup` | reading the setup form, `startGame` |
| trade.dfy | `Trade` | `executeTrade` |
| day_labels.dfy | `DayLabels` | `generateDayLabels` |
| chart.dfy | `Chart` | `SimpleChart.draw` |
| chart_widget.dfy | `ChartWidget` | the `SimpleChart` constructor, `resize`, `update`, `destroy` |
| dashboard.dfy | `Dashboard` | the three charts' data, `updateCharts` |

## Model

| member | source | states |
|---|---|---|
| Money.RoundCents | game.js:181 | Rounding to cents gives a whole number of cents within half a cent of the input. |
| Money.RoundCentsKeepsCents | game.js:181 | An amount already in whole cents is left unchanged by rounding. |
| Money.RoundCentsMonotone | game.js:181 | Rounding to cents keeps the order of amounts. |
| Money.RoundCentsLowerBounds | game.js:180-181 | Rounding keeps a non-negative amount non-negative, and an amount of at least one cent at least one cent. |
| Money.FloorOf | game.js:279 | `Math.floor`: the integer at or just below the input. |
| Money.Max | game.js:180 | `Math.max`: the larger of two amounts. |
| Money.Min | simple-chart.js:96 | `Math.min` on whole numbers: the smaller of the two. |
| Game.MovePrice | game.js:177-181 | The next day's price is at least one cent and a whole number of cents. |
| Game.MovePriceNearTarget | game.js:178-181 | The next day's price is within half a cent of max(0.01, price × 1.1) on a rise, or of max(0.01, price × 0.9) on a fall. |
| Game.MovePriceDirection | game.js:178-181 | From a whole-cent price, a rise never lowers the price and a fall never raises it. |
| Game.PennyPriceIsStuck | game.js:180-181 | A price of one cent stays one cent on a rise (rounding undoes it) and on a fall (the floor holds it). |
| Game.RecordTotals | game.js:187-190 | Every player's cash and shares stay as they were. Each history grows by exactly one entry and keeps its earlier entries. The new entry is a whole-cent amount within half a cent of the player's total assets at the new price. |
| Game.EndGame | game.js:334-335 | Ending the game marks it over and changes nothing else. |
| Game.NextDay | game.js:173-203 | A finished game is left alone. Otherwise the day advances by one, and the new price is the old one moved by the day's rise or fall (`MovePrice`): at least one cent, in whole cents, and appended to the price history. Players keep their holdings and have their totals appended. The game is over exactly when the new day passes the configured number of days. |
| Game.NextDayPreservesValid | game.js:173-203 | A new day keeps a valid game valid: two players, one entry per day in every history, the last price equal to the current price, no negative holdings, and over exactly when the day is past the last. |
| Game.DaysCount | game.js:173-174 | After any sequence of days a valid game stays valid. The day counter moves up by one a day until it reaches `gameDays + 1` and then stays there. The game is over exactly from then on. |
| Game.WealthMonotone | game.js:188 | A player's total (cash plus shares at the price) is their cash when they hold no shares, at least their cash at a non-negative price, and no less at a higher price. |
| Game.Winner | game.js:338-350 | The winner is 0 exactly when player 1's total is larger, 1 exactly when player 2's is larger, and -1 exactly on equal totals. |
| Game.WinnerSwap | game.js:338-350 | Exchanging the players' seats exchanges the winner; a tie stays a tie. |
| Setup.OrElse | game.js:30 | `parsed \|\| fallback`: a readable non-zero number is kept; NaN and 0 give the fallback. |
| Setup.OrElseInt | game.js:31 | The same for the integer day count. |
| Setup.ReadSetupAsWritten | game.js:30-33 | The form as the page reads it: each field keeps a readable non-zero value. An unreadable value or a 0 gives the field's fallback: 100 for the price, 30 for the day count, 10000 for the funds and 50 for the rise probability. |
| Setup.ZeroRiseProbabilityIsLost | game.js:33 | A typed rise probability of 0 is a value the validation accepts, yet the page's reading turns it into 50. |
| Setup.BlankFormStartsDefaultGame | game.js:2-15 | The record held before any start is not yet a valid game. A blank form reads as exactly that record's settings, and starting with them succeeds with a valid game on day 1 at the record's price and cash. |
| Setup.ReadSetup | game.js:30-33 | The corrected reading: a readable rise probability, 0 included, is kept. Only an unreadable one becomes 50. The other fields are read as the page reads them. |
| Setup.ReadSetupKeepsProbability | game.js:33-41 | With the corrected reading, every rise probability in 0..100 reaches the validation unchanged. |
| Setup.StartGame | game.js:28-54 | The settings are always stored. It fails with "not positive" exactly when the price, the day count or the funds is not positive. It fails with "out of range" exactly when those are positive but the probability is outside 0..100. A failure leaves the game in play untouched. A success gives a valid game on day 1 at the initial price, with that price as the only history entry, two players holding the initial funds in cash, no shares and the funds as their first total, not over. |
| Trade.RequestedShares | game.js:277-283 | A request by shares is the floor of the value. A request by amount is the largest whole number of shares the amount pays for. |
| Trade.Affordable | game.js:294 | `floor(cash / price)`: that many shares cost at most the cash, and one more share costs more. |
| Trade.Fill | game.js:290-312 | The shares settled never exceed the shares asked for. A purchase gets some shares exactly when the cash covers one share, and it is cut down only to the most the cash pays for. A sale gets some shares exactly when some are held, and it is cut down only to the shares held. |
| Trade.Settle | game.js:300-324 | Only the trading player changes. The player's shares move by the amount traded and the cash by its price, rounded to cents. The history keeps its length and earlier entries. Its last entry becomes the new total, rounded to cents. |
| Trade.QuoteTrade | game.js:264-312 | The checks in the page's order: a finished game, a value that is not positive, less than one whole share, no cash for one share (buy), no shares held (sell). Each refusal happens exactly when its condition holds and no earlier check refused. A request is accepted exactly when no check refuses it, and then moves the clamped, positive number of shares. |
| Trade.ExecuteTrade | game.js:264-324 | A trade is refused exactly when the checks refuse it, with their reason and no change to the record. Otherwise the clamped shares are settled for that player. |
| Trade.SettleConservesWealth | game.js:300-320 | Exchanging shares for cash at the current price moves the player's total assets by at most half a cent, which is the rounding of the cash. |
| Trade.TradeConservesWealth | game.js:264-324 | A trade, accepted or refused, moves the trading player's total assets by at most half a cent. |
| Trade.SettleKeepsHoldings | game.js:300-320 | Settling a movement the player can cover keeps cash and shares non-negative. |
| Trade.FillIsCovered | game.js:290-315 | The clamped shares are always covered: a purchase costs no more than the cash and a sale sells no more than the shares held. |
| Trade.TradeKeepsHoldingsNonNegative | game.js:264-324 | No trade leaves a player with negative cash or negative shares. |
| Trade.OverGameIsFrozen | game.js:264-265 | Once the game is over, a new day changes nothing and every trade is refused without change. |
| Trade.TradePreservesValid | game.js:264-324 | A trade keeps a valid game valid: no history changes length and the day and price stay. |
| DayLabels.Decimal | game.js:170 | The decimal text of a number is a non-empty string of digits with no leading zero: a positive number's text does not start with '0', and 0 is written "0". With `DecimalRoundTrip` this pins the canonical text. |
| DayLabels.DecimalRoundTrip | game.js:170 | Reading back the decimal text of a number gives the number. |
| DayLabels.DayLabel | game.js:170 | Day `i` (from 0) is labelled "第", the decimal text of `i + 1`, then "天". |
| DayLabels.Labels | game.js:169-171 | There is one label per history entry, the i-th being day i's label. |
| DayLabels.DayLabelInjective | game.js:170 | Different days get different labels. |
| DayLabels.LabelsDistinct | game.js:169-171 | The labels of a chart never repeat. |
| Chart.AllValues | simple-chart.js:59-62 | The values of all series together: empty exactly when every series is empty, containing every value of every series and nothing else. |
| Chart.MinOf | simple-chart.js:66 | The least value, which is one of the values. |
| Chart.MaxOf | simple-chart.js:67 | The greatest value, which is one of the values. |
| Chart.PaddedRange | simple-chart.js:66-72 | The plotted range strictly contains the data and is widened equally on both sides: by a tenth of the span, or by 0.1 when all values are equal. It is therefore never empty. |
| Chart.Gaps | simple-chart.js:100 | `count - 1 \|\| 1` is never zero, so x positions never divide by zero. |
| Chart.MapYRoundTrip | simple-chart.js:127 | The value mapping is invertible: the value read back at a value's height is the value. |
| Chart.MapYInside | simple-chart.js:127 | With a plot area of positive height, a value strictly inside the range is plotted strictly between the area's top and bottom. |
| Chart.MapYDecreasing | simple-chart.js:127 | Larger values are plotted higher, at smaller y. |
| Chart.MapYEnds | simple-chart.js:127 | The range's lowest value is plotted on the plot area's bottom edge and its highest on the top edge. |
| Chart.MapXWithin | simple-chart.js:126 | With a non-negative plot width, every position of a series is plotted within the plot area's width. |
| Chart.MapXEnds | simple-chart.js:126 | Position 0 is at the left margin. With more than one position, the last is at the right edge of the plot area. |
| Chart.MapXIncreasing | simple-chart.js:126 | With a plot area of positive width, x increases strictly with the position. |
| Chart.GridRows | simple-chart.js:79-93 | Exactly six horizontal grid lines. |
| Chart.GridRowOnValue | simple-chart.js:81-88 | Grid line `i` is `i` fifths of the way down the plot area, and its label is the value plotted at that height. |
| Chart.GridRowsLayout | simple-chart.js:79-88 | The grid lines run evenly, a fifth of the plot height apart, from its top to its bottom. Their labels run from the range's top to its bottom, each the value plotted at its line. |
| Chart.Ceil | simple-chart.js:97 | `Math.ceil`: the integer at or just above the input. |
| Chart.TickStride | simple-chart.js:96-97 | With k = min(n − 1, 8) bands, the stride is ceil(n / k): the least stride s with s·k ≥ n, so (s − 1)·k < n. With at most one label it is 1. |
| Chart.StrideIsLeast | simple-chart.js:97 | ceil(n / k) − 1 bands of width k fall short of n. |
| Chart.TickIndices | simple-chart.js:99 | The labelled positions are from, from + s, from + 2s, ..., all below n, and the next one would reach n. |
| Chart.TickIndicesAreMultiples | simple-chart.js:99 | A multiple `j·s` of the stride is labelled exactly when it is below the label count. |
| Chart.CeilTimes | simple-chart.js:97 | ceil(n / k) · k reaches n. |
| Chart.TickCountBound | simple-chart.js:96-99 | With two labels or more, at most min(n − 1, 8) positions are labelled. |
| Chart.HundredLabels | simple-chart.js:96-99 | A hundred labels give stride 13 and eight labelled positions. |
| Chart.Ticks | simple-chart.js:99-111 | One vertical grid line per labelled position. Each is placed by the label count and carries that position's label. |
| Chart.Points | simple-chart.js:125-129 | A series is plotted as one point per value. |
| Chart.Traces | simple-chart.js:114-116 | At most one trace per series, and every trace has points: an empty series is skipped. |
| Chart.TracesAppend | simple-chart.js:114 | Series are drawn independently and in array order. |
| Chart.TracesCount | simple-chart.js:114-116 | Every non-empty series gives one trace and an empty series gives none. |
| Chart.TraceOfSeries | simple-chart.js:114-116 | A non-empty series' trace comes right after the traces of the non-empty series before it. |
| Chart.PointsPlacedAlong | simple-chart.js:125-143 | A series' points run from the left margin to the right edge of the plot area, spread by the series' own length. Each point is at its value's height, and they go left to right. |
| Chart.DrawPlacesSeries | simple-chart.js:114-143 | In a drawing, each non-empty series' trace, in its array position, is placed along that series' own values. |
| Chart.Draw | simple-chart.js:37-72 | Nothing but the clearing happens exactly when there are no labels, no series, or no values at all. Otherwise the chart is drawn at the canvas size with a non-empty range, six grid rows, and a tick at position 0. |
| Chart.DrawLayout | simple-chart.js:56-111 | A drawn chart's range is the padded range of all its values, its horizontal grid is the frame's six rows, and its vertical grid is placed by its labels. |
| Chart.DrawKeepsValuesInside | simple-chart.js:66-127 | Every value of every series lies strictly inside the plotted range. With positive plot height, every value is plotted strictly inside the plot area. |
| Chart.FlatRange | simple-chart.js:70-72 | Values that are all equal to `v` give the range `v − 0.1 .. v + 0.1`. |
| Chart.MidwayValue | simple-chart.js:127 | The middle of the range is plotted halfway down the plot area. |
| Chart.FlatDataPlotsMidway | simple-chart.js:66-127 | When all values are equal, each is plotted exactly halfway down the plot area. |
| Chart.Dots | simple-chart.js:154-163 | One marker of radius 3 per point, at the point. |
| Chart.OutlineShape | simple-chart.js:122-131 | The filled area's outline starts at the plot area's bottom-left corner, runs through the points in order, and ends at the bottom-right corner. |
| Chart.TracePrims | simple-chart.js:121-163 | A trace is drawn as: the filled area (from the baseline at the left edge, through the points, to the baseline at the right edge), then the line through the points, then one marker per point at the line's vertices. |
| Chart.DotsPerValue | simple-chart.js:113-164 | A drawn chart puts exactly one marker on the canvas per value of its series. |
| Chart.RowPrims | simple-chart.js:80-93 | Two canvas calls per grid row, top to bottom: the line across the plot area from the left margin to the right one at the row's height, then the row's value label 8 units left of the plot area and 4 below the line. |
| Chart.TickPrims | simple-chart.js:99-111 | Two canvas calls per tick, left to right: the line at the tick's x from the top of the plot area to its bottom edge, then the tick's label 15 units under that edge. |
| Chart.TracesPrims | simple-chart.js:114-164 | The traces take two calls each (area and line) plus one per point. |
| Chart.TracesInOrder | simple-chart.js:114-164 | Trace j's calls sit whole in the trace calls, right after those of the traces before it, so the series are painted in array order and later ones over earlier ones. |
| Chart.Render | simple-chart.js:45-164 | A blank scene is only the clearing of the canvas. A chart is the clearing, then the horizontal grid, then the vertical grid, then the traces, each block in its place and of its size. |
| Chart.RenderedRows | simple-chart.js:80-93 | In a drawn chart's calls, right after the clearing, grid row `k` is drawn as its line at the row's height across the plot area and its value label. |
| Chart.RenderedTicks | simple-chart.js:99-111 | Right after the horizontal grid, tick `j` is drawn as its vertical line over the plot area and its label under the bottom edge. |
| ChartWidget.Create | simple-chart.js:7-22 | A new chart takes the data and size, draws twice (in `resize` and after it), and listens for resizes. |
| ChartWidget.Step | simple-chart.js:15-35 | A resize redraws at the new size exactly when the chart listens, and otherwise changes nothing. `update` always redraws with the new data. `destroy` stops listening and draws nothing. |
| ChartWidget.DestroyedStaysDestroyed | simple-chart.js:171-173 | Nothing registers the handler again, so a chart that stopped listening keeps not listening. |
| ChartWidget.ResizeAfterDestroyIsSilent | simple-chart.js:171-173 | After `destroy`, window resizes neither redraw the chart nor change its size. |
| ChartWidget.ResizeWhileListening | simple-chart.js:19-35 | While listening, every resize redraws once at its size, and the chart ends at the last resize's size. |
| ChartWidget.CreateThenDestroy | simple-chart.js:7-22 | A chart created then destroyed has drawn twice and ignores all later resizes. |
| Dashboard.PriceChart | game.js:74-82 | The price chart has one label per recorded price and one series: the price history, in the price chart's colours. |
| Dashboard.PlayerChart | game.js:93-120 | Player `who`'s chart has the same day labels and one series: that player's total history, in the player's colour. |
| Dashboard.OneSeriesTrace | simple-chart.js:56-116 | A chart of one series with one label per value is drawn, with exactly that series' trace. |
| Dashboard.OneSeriesDots | simple-chart.js:154-163 | Such a chart has one marker per label. |
| Dashboard.OneSeriesTicksMeetPoints | simple-chart.js:99-126 | In such a chart every vertical grid line passes through the series' point at the labelled position. |
| Dashboard.GameChartsAlign | game.js:66-128 | In a valid game, each of the three charts has one label and one value per day so far. Each is drawn with one marker per day, and its grid lines meet the labelled days' points. |
| Dashboard.UpdateCharts | game.js:246-261 | The three charts get the game's current labels and histories and are redrawn, price chart first. Nothing else about them changes: sizes and resize handlers stay as they were. |
| Dashboard.NewDayAddsOnePoint | game.js:184-197 | After a new day, every chart shows one more day, and the price chart ends with the new price. |

## Left out

- The DOM: reading the form, toasts, `updateUI`'s text and the screen switching. These are presentation. The form's values come in as parameters.
- `Math.random`: the day's draw is an `isRise` parameter, so the rise probability's meaning (rise when `random·100 < p`) is not modelled.
- IEEE-754 arithmetic: amounts are exact reals. `Math.round(x·100)/100` is exact rounding to the nearest cent, with halves going up. Float effects such as `1.005·100` rounding down are not modelled.
- `parseFloat`/`parseInt`: a parsed value is an `Option` (None for NaN). The trade value's `|| 0` is not modelled; a NaN trade value counts as 0, which the page refuses as not positive anyway.
- Setup.StartGame: the page stores the four settings in the record before validating, so a refused start still overwrites them. The model does the same; only the game in play is left untouched on failure.
- Chart.Draw: `draw` clears the canvas before its empty checks, so the empty scene is still a clearing of the canvas.
- ChartWidget.Step: `resize()`'s device-pixel-ratio scaling is not modelled: the canvas's backing size set from the ratio, and the `ctx.scale` applied after each size change. The chart simply takes the parent's new size.
- Chart.Draw: the `!this.ctx` guard is left out, since a canvas context is always present. A missing `data` field of a series (`ds.data \|\| []`) cannot occur, since every `Series` has a sequence.
- Text: the y labels' `toFixed(0)` formatting with the 'Â¥' prefix, fonts, text alignment and the grid's stroke colour are left out. A value label carries the value.
- `getChartOptions` and `initCharts`: configuration objects and the global chart handles. The renderer ignores the options. The three charts' data and colours are modelled in `Dashboard`.
- `updateCharts` mutates the charts' data arrays in place. The model replaces the data in one `Updated` event.
- `restartGame` and event wiring: these only switch screens.

## Findings

| source | as written | input that shows it | evidently intended | confidence | as-written member | corrected member |
|---|---|---|---|---|---|---|
| game.js:33 | `parseFloat(value) \|\| 50` treats a typed 0 like an unreadable value | rise probability typed as `0` (the validation at line 41 accepts 0..100) | a probability of 0 is kept, so the price always falls | not executed | Setup.ReadSetupAsWritten, Setup.ZeroRiseProbabilityIsLost | Setup.ReadSetup, Setup.ReadSetupKeepsProbability |

=== FILE: chart.dfy ===
/** The layout of `SimpleChart.draw` (simple-chart.js): a dependency-free
    line chart. Given the labels, the series and the canvas size, the chart
    pads the value range, draws six horizontal grid lines labelled with
    values, at most eight vertical grid lines labelled with every stride-th
    label, and for every non-empty series a filled area, a polyline and a
    dot per value. The canvas calls become a scene of primitives. */
module Chart {
  import opened Money

  datatype Point = Point(x: real, y: real)

  /** One dataset: its values and its colours; an empty colour is unset
      and replaced by the default. */
  datatype Series = Series(data: seq<real>, borderColor: string, backgroundColor: string)

  /** What the chart draws: one label per x position, and the series. */
  datatype ChartData = ChartData(labels: seq<string>, datasets: seq<Series>)

  // The plot area's margins, in canvas units.
  const PadTop: real := 20.0
  const PadRight: real := 20.0
  const PadBottom: real := 40.0
  const PadLeft: real := 60.0

  /** The number of equal bands between the horizontal grid lines. */
  const GridDivisions: nat := 5
  /** The most bands the vertical grid lines may cut the x axis into. */
  const MaxTickDivisions: nat := 8
  /** The share of the value span added above and below the data. */
  const RangePadding: real := 0.1

  const LineWidth: real := 2.0
  const MarkerRadius: real := 3.0
  const DefaultLineColor: string := "#00d9ff"
  const DefaultFillColor: string := "rgba(0, 217, 255, 0.1)"

  /** `color || fallback` on a colour string. */
  function ColorOr(color: string, fallback: string): string {
    if color == "" then fallback else color
  }

  // ---------------------------------------------------------------------
  // The value range

  /** All values of all series, series after series (`allValues.concat`). */
  function AllValues(ds: seq<Series>): (vs: seq<real>)
    ensures |vs| == 0 <==> forall k :: 0 <= k < |ds| ==> |ds[k].data| == 0
    ensures forall k, i :: 0 <= k < |ds| && 0 <= i < |ds[k].data| ==> ds[k].data[i] in vs
    ensures forall v :: v in vs ==> exists k :: 0 <= k < |ds| && v in ds[k].data
  {
    if |ds| == 0 then []
    else
      var init := AllValues(ds[..|ds| - 1]);
      assert forall k :: 0 <= k < |ds| - 1 ==> ds[..|ds| - 1][k] == ds[k];
      init + ds[|ds| - 1].data
  }

  /** `Math.min(...vs)`. */
  function MinOf(vs: seq<real>): (m: real)
    requires |vs| > 0
    ensures m in vs
    ensures forall i :: 0 <= i < |vs| ==> m <= vs[i]
  {
    if |vs| == 1 then vs[0]
    else
      var rest := MinOf(vs[1..]);
      if vs[0] <= rest then vs[0] else rest
  }

  /** `Math.max(...vs)`. */
  function MaxOf(vs: seq<real>): (m: real)
    requires |vs| > 0
    ensures m in vs
    ensures forall i :: 0 <= i < |vs| ==> vs[i] <= m
  {
    if |vs| == 1 then vs[0]
    else
      var rest := MaxOf(vs[1..]);
      if vs[0] >= rest then vs[0] else rest
  }

  /** The plotted value range: `lo` maps to the bottom of the plot area,
      `hi` to its top. */
  datatype Range = Range(lo: real, hi: real)

  /** The data's range widened by a tenth of its span on either side; a
      flat data set counts as spanning 1, so the range is never empty. */
  function PaddedRange(vs: seq<real>): (r: Range)
    requires |vs| > 0
    ensures r.lo < MinOf(vs) && MaxOf(vs) < r.hi
    ensures MinOf(vs) - r.lo == r.hi - MaxOf(vs)
    ensures MinOf(vs) < MaxOf(vs) ==> r.hi - r.lo == 1.2 * (MaxOf(vs) - MinOf(vs))
    ensures MinOf(vs) == MaxOf(vs) ==> r.hi - r.lo == 0.2
  {
    var lo := MinOf(vs);
    var hi := MaxOf(vs);
    var span := if hi - lo == 0.0 then 1.0 else hi - lo;
    Range(lo - span * RangePadding, hi + span * RangePadding)
  }

  // ---------------------------------------------------------------------
  // The coordinate mappings

  /** The canvas size and the plotted range of one drawing. */
  datatype Frame = Frame(width: real, height: real, range: Range) {

    function ChartWidth(): real {
      width - PadLeft - PadRight
    }

    function ChartHeight(): real {
      height - PadTop - PadBottom
    }

    /** The y of the plot area's bottom edge (`height - padding.bottom`). */
    function Baseline(): real {
      height - PadBottom
    }

    predicate NonEmptyRange() {
      range.lo < range.hi
    }
  }

  /** The y at which `v` is plotted: linear in `v`, `range.lo` at the
      bottom of the plot area and `range.hi` at its top. */
  function MapY(f: Frame, v: real): real
    requires f.NonEmptyRange()
  {
    var ch := f.ChartHeight();
    PadTop + ch - ((v - f.range.lo) / (f.range.hi - f.range.lo) * ch)
  }

  /** The value plotted at height `y`; undoes `MapY`. */
  function ValueAtY(f: Frame, y: real): real
    requires f.ChartHeight() != 0.0
  {
    f.range.lo + (PadTop + f.ChartHeight() - y) / f.ChartHeight() * (f.range.hi - f.range.lo)
  }

  /** `count - 1 || 1`: the number of gaps between `count` points, taken
      as 1 when there is a single point. */
  function Gaps(count: int): (d: int)
    ensures d != 0
  {
    if count - 1 == 0 then 1 else count - 1
  }

  /** The x of position `i` of `count` evenly spread positions. */
  function MapX(chartWidth: real, i: int, count: int): real {
    PadLeft + (chartWidth * i as real / Gaps(count) as real)
  }

  /** The lowest value of the range is plotted on the plot area's bottom
      edge and the highest on its top edge. */
  lemma MapYEnds(f: Frame)
    requires f.NonEmptyRange()
    ensures MapY(f, f.range.lo) == f.Baseline()
    ensures MapY(f, f.range.hi) == PadTop
  {
    var w := f.range.hi - f.range.lo;
    assert (f.range.lo - f.range.lo) / w == 0.0;
    assert (f.range.hi - f.range.lo) / w == 1.0;
  }

  /** Every position of a series is plotted within the plot area's width. */
  lemma MapXWithin(chartWidth: real, i: int, count: int)
    requires chartWidth >= 0.0 && 0 <= i < count
    ensures PadLeft <= MapX(chartWidth, i, count) <= PadLeft + chartWidth
  {
    var d := Gaps(count) as real;
    assert 0.0 <= i as real <= d;
    var a := chartWidth * i as real;
    assert 0.0 <= a <= chartWidth * d by {
      assert chartWidth * (d - i as real) >= 0.0;
    }
    DivideOut(chartWidth * d, chartWidth, d);
    DivMonotone(0.0, a, d);
    DivMonotone(a, chartWidth * d, d);
  }

  lemma DivMonotone(a: real, b: real, d: real)
    requires d > 0.0 && a <= b
    ensures a / d <= b / d
  {
    assert (b - a) / d >= 0.0;
    assert b / d - a / d == (b - a) / d;
  }

  /** Reading back the value plotted at `MapY(f, v)` gives `v`. */
  lemma MapYRoundTrip(f: Frame, v: real)
    requires f.NonEmptyRange() && f.ChartHeight() != 0.0
    ensures ValueAtY(f, MapY(f, v)) == v
  {
    var ch := f.ChartHeight();
    var w := f.range.hi - f.range.lo;
    var t := (v - f.range.lo) / w;
    var y := MapY(f, v);
    var e := PadTop + ch - y;
    assert e == t * ch;
    DivideOut(e, t, ch);
    var q := e / ch;
    assert ValueAtY(f, y) == f.range.lo + q * w;
    assert q * w == t * w;
    DivideOut(v - f.range.lo, t, w);
  }

  /** A proper fraction of a positive amount is strictly between 0 and 1. */
  lemma FractionBetween(a: real, b: real)
    requires 0.0 < a < b
    ensures 0.0 < a / b < 1.0
  {
    assert a / b * b == a;
    if a / b >= 1.0 {
      assert false;
    }
  }

  /** Dividing a multiple of a non-zero amount by that amount gives the
      factor back. */
  lemma DivideOut(a: real, x: real, d: real)
    requires d != 0.0 && a == x * d
    ensures a / d == x
  {
  }

  /** With a plot area of positive height, every value strictly inside the
      plotted range lands strictly between the area's top and bottom. */
  lemma MapYInside(f: Frame, v: real)
    requires f.NonEmptyRange() && f.ChartHeight() > 0.0
    requires f.range.lo < v < f.range.hi
    ensures PadTop < MapY(f, v) < PadTop + f.ChartHeight()
  {
    var ch := f.ChartHeight();
    var t := (v - f.range.lo) / (f.range.hi - f.range.lo);
    FractionBetween(v - f.range.lo, f.range.hi - f.range.lo);
    assert 0.0 < t * ch < 1.0 * ch;
  }

  /** Larger values are plotted higher up (at smaller y). */
  lemma MapYDecreasing(f: Frame, v: real, w: real)
    requires f.NonEmptyRange() && f.ChartHeight() > 0.0
    requires v < w
    ensures MapY(f, w) < MapY(f, v)
  {
    var ch := f.ChartHeight();
    var d := f.range.hi - f.range.lo;
    assert (v - f.range.lo) / d < (w - f.range.lo) / d;
    assert (v - f.range.lo) / d * ch < (w - f.range.lo) / d * ch;
  }

  /** Position 0 is at the left margin; with one position that is all,
      with more the last one is at the right edge of the plot area. */
  lemma MapXEnds(chartWidth: real, count: int)
    requires count >= 1
    ensures MapX(chartWidth, 0, count) == PadLeft
    ensures count >= 2 ==> MapX(chartWidth, count - 1, count) == PadLeft + chartWidth
  {
    if count >= 2 {
      var d := (count - 1) as real;
      assert Gaps(count) as real == d;
      assert chartWidth * d / d == chartWidth;
    }
  }

  /** With a plot area of positive width, x grows with the position. */
  lemma MapXIncreasing(chartWidth: real, i: int, j: int, count: int)
    requires chartWidth > 0.0 && count >= 1 && i < j
    ensures MapX(chartWidth, i, count) < MapX(chartWidth, j, count)
  {
    var d := Gaps(count) as real;
    assert d > 0.0;
    var a := chartWidth * i as real;
    var b := chartWidth * j as real;
    assert a < b;
    assert b / d - a / d == (b - a) / d > 0.0;
    assert MapX(chartWidth, i, count) == PadLeft + a / d;
    assert MapX(chartWidth, j, count) == PadLeft + b / d;
  }

  // ---------------------------------------------------------------------
  // Horizontal grid

  /** A horizontal grid line at `y`, labelled with `value`. */
  datatype GridRow = GridRow(y: real, value: real)

  /** The six horizontal grid lines, top to bottom (`i = 0..5`). */
  function GridRows(f: Frame): (rows: seq<GridRow>)
    requires f.NonEmptyRange()
    ensures |rows| == GridDivisions + 1
  {
    var n := GridDivisions as real;
    seq(GridDivisions + 1, i requires 0 <= i <= GridDivisions =>
      GridRow(PadTop + (f.ChartHeight() * i as real / n),
              f.range.hi - ((f.range.hi - f.range.lo) * i as real / n)))
  }

  /** Grid line `i` sits `i` fifths of the way down the plot area, and its
      label is the value plotted at that height. */
  lemma GridRowOnValue(f: Frame, i: int)
    requires f.NonEmptyRange() && 0 <= i <= GridDivisions
    ensures var row := GridRows(f)[i];
      && row.y == PadTop + f.ChartHeight() * (i as real / 5.0)
      && MapY(f, row.value) == row.y
  {
    var row := GridRows(f)[i];
    var ch := f.ChartHeight();
    var d := f.range.hi - f.range.lo;
    var t := i as real / 5.0;
    assert row.value == f.range.hi - d * t;
    assert row.value - f.range.lo == (1.0 - t) * d;
    DivideOut(row.value - f.range.lo, 1.0 - t, d);
    assert row.y == PadTop + ch * t;
  }

  /** The grid lines run evenly from the top of the plot area to its
      bottom, their labels run from the top of the range to its bottom,
      and every line's label is the value plotted at the line's height. */
  lemma GridRowsLayout(f: Frame)
    requires f.NonEmptyRange()
    ensures var rows := GridRows(f);
      && rows[0].y == PadTop && rows[GridDivisions].y == PadTop + f.ChartHeight()
      && rows[0].value == f.range.hi && rows[GridDivisions].value == f.range.lo
      && (forall i :: 0 <= i < GridDivisions ==> rows[i + 1].y - rows[i].y == f.ChartHeight() / 5.0)
      && (forall i :: 0 <= i <= GridDivisions ==> MapY(f, rows[i].value) == rows[i].y)
  {
    var rows := GridRows(f);
    var ch := f.ChartHeight();
    forall i | 0 <= i <= GridDivisions
      ensures MapY(f, rows[i].value) == rows[i].y
    {
      GridRowOnValue(f, i);
    }
    forall i | 0 <= i < GridDivisions
      ensures rows[i + 1].y - rows[i].y == ch / 5.0
    {
      GridRowOnValue(f, i);
      GridRowOnValue(f, i + 1);
      assert ch * ((i + 1) as real / 5.0) - ch * (i as real / 5.0) == ch / 5.0;
    }
  }

  // ---------------------------------------------------------------------
  // Vertical grid and x labels

  /** `Math.ceil(x)`. */
  function Ceil(x: real): (c: int)
    ensures x <= c as real < x + 1.0
  {
    -((-x).Floor)
  }

  /** The stride between labelled x positions for `n` labels: the least
      stride whose `k = min(n - 1, MaxTickDivisions)` bands reach `n`, that
      is `ceil(n / k)`; 1 when there is at most one label. */
  function TickStride(n: nat): (s: int)
    ensures s >= 1
    ensures var k := Min(n - 1, MaxTickDivisions);
      && (k > 0 ==> s * k >= n > (s - 1) * k)
      && (k <= 0 ==> s == 1)
  {
    var k := Min(n - 1, MaxTickDivisions);
    if k > 0 then
      var c := Ceil(n as real / k as real);
      assert c as real >= n as real / k as real > 0.0;
      CeilTimes(n, k);
      assert (c - 1) as real < n as real / k as real;
      StrideIsLeast(n, k, c);
      c
    else 1
  }

  /** A stride one less than `n / k` (as `ceil(n / k) - 1` is) gives `k`
      bands that fall short of `n`. */
  lemma StrideIsLeast(n: nat, k: nat, c: int)
    requires k > 0 && (c - 1) as real < n as real / k as real
    ensures (c - 1) * k < n
  {
    var q := n as real / k as real;
    var x := (c - 1) as real;
    MulStrict(x, q, k as real);
    DivTimes(n as real, k as real);
    CastMul(c - 1, k);
    assert ((c - 1) * k) as real < n as real;
  }

  lemma DivTimes(a: real, d: real)
    requires d != 0.0
    ensures a / d * d == a
  {
  }

  lemma CastMul(a: int, b: int)
    ensures (a * b) as real == a as real * b as real
  {
  }

  lemma MulStrict(x: real, y: real, k: real)
    requires x < y && k > 0.0
    ensures x * k < y * k
  {
    assert (y - x) * k > 0.0;
  }

  /** The positions `from, from + s, from + 2s, ...` below `n`. */
  function TickIndices(from: nat, n: nat, s: int): (ts: seq<nat>)
    requires s >= 1
    ensures forall j :: 0 <= j < |ts| ==> ts[j] == from + j * s && ts[j] < n
    ensures from + |ts| * s >= n
    decreases n - from
  {
    if from >= n then []
    else
      var rest := TickIndices(from + s, n, s);
      var ts := [from] + rest;
      forall j | 1 <= j < |ts|
        ensures ts[j] == from + j * s
      {
        assert ts[j] == rest[j - 1] == from + s + (j - 1) * s;
        assert (j - 1) * s + s == j * s;
      }
      assert (|rest| + 1) * s == |rest| * s + s;
      ts
  }

  /** Position `j * s` is labelled exactly when it lies below `n`: the
      labelled positions are 0, s, 2s, ... and nothing else. */
  lemma TickIndicesAreMultiples(n: nat, s: int, j: nat)
    requires s >= 1
    ensures var ts := TickIndices(0, n, s);
      j < |ts| <==> j * s < n
  {
    var ts := TickIndices(0, n, s);
    if j < |ts| {
      assert ts[j] == j * s;
    } else {
      assert (j - |ts|) * s >= 0;
      assert j * s >= |ts| * s;
    }
  }

  /** `ceil(n / k) * k` reaches `n`. */
  lemma CeilTimes(n: nat, k: nat)
    requires k > 0
    ensures Ceil(n as real / k as real) * k >= n
  {
    var c := Ceil(n as real / k as real);
    var q := n as real / k as real;
    assert c as real >= q;
    assert q * k as real == n as real;
    assert c as real * k as real >= q * k as real;
    assert (c * k) as real == c as real * k as real;
  }

  /** With two labels or more, at most `min(n - 1, 8)` positions are
      labelled, whatever the number of labels. */
  lemma TickCountBound(n: nat)
    requires n >= 2
    ensures |TickIndices(0, n, TickStride(n))| <= Min(n - 1, MaxTickDivisions)
  {
    var k := Min(n - 1, MaxTickDivisions);
    var s := TickStride(n);
    CeilTimes(n, k);
    assert k * s >= n;
    TickIndicesAreMultiples(n, s, k);
  }

  /** A hundred labels: stride 13, eight labelled positions. */
  lemma HundredLabels()
    ensures TickStride(100) == 13
    ensures |TickIndices(0, 100, 13)| == 8
  {
    assert (-(100.0 / 8.0)).Floor == -13;
    TickIndicesAreMultiples(100, 13, 7);
    TickIndicesAreMultiples(100, 13, 8);
  }

  /** A vertical grid line at position `index`, labelled with its label. */
  datatype Tick = Tick(index: nat, x: real, text: string)

  /** The vertical grid lines: every stride-th label, placed by the label
      count. */
  function Ticks(f: Frame, labels: seq<string>): (ts: seq<Tick>)
    requires |labels| > 0
    ensures var idx := TickIndices(0, |labels|, TickStride(|labels|));
      && |ts| == |idx|
      && forall j :: 0 <= j < |ts| ==>
           ts[j] == Tick(idx[j], MapX(f.ChartWidth(), idx[j], |labels|), labels[idx[j]])
  {
    var idx := TickIndices(0, |labels|, TickStride(|labels|));
    seq(|idx|, j requires 0 <= j < |idx| =>
      Tick(idx[j], MapX(f.ChartWidth(), idx[j], |labels|), labels[idx[j]]))
  }

  // ---------------------------------------------------------------------
  // Series

  /** A non-empty series as drawn: its plotted points and its colours. */
  datatype Trace = Trace(points: seq<Point>, lineColor: string, fillColor: string)

  /** The plotted points of `data`, spread over the series' own length. */
  function Points(f: Frame, data: seq<real>): (pts: seq<Point>)
    requires f.NonEmptyRange()
    ensures |pts| == |data|
  {
    seq(|data|, i requires 0 <= i < |data| =>
      Point(MapX(f.ChartWidth(), i, |data|), MapY(f, data[i])))
  }

  function TraceOf(f: Frame, s: Series): Trace
    requires f.NonEmptyRange()
  {
    Trace(Points(f, s.data), ColorOr(s.borderColor, DefaultLineColor),
          ColorOr(s.backgroundColor, DefaultFillColor))
  }

  /** The traces of the series in array order, an empty series giving none. */
  function Traces(f: Frame, ds: seq<Series>): (ts: seq<Trace>)
    requires f.NonEmptyRange()
    ensures |ts| <= |ds|
    ensures forall j :: 0 <= j < |ts| ==> |ts[j].points| > 0
  {
    if |ds| == 0 then []
    else
      var last := ds[|ds| - 1];
      Traces(f, ds[..|ds| - 1]) + (if |last.data| == 0 then [] else [TraceOf(f, last)])
  }

  /** The number of non-empty series. */
  function NonEmptyCount(ds: seq<Series>): nat {
    if |ds| == 0 then 0
    else NonEmptyCount(ds[..|ds| - 1]) + (if |ds[|ds| - 1].data| == 0 then 0 else 1)
  }

  /** Series are drawn independently and in order: the traces of two lists
      of series are the traces of the first followed by those of the second. */
  lemma {:induction false} TracesAppend(f: Frame, a: seq<Series>, b: seq<Series>)
    requires f.NonEmptyRange()
    ensures Traces(f, a + b) == Traces(f, a) + Traces(f, b)
    decreases |b|
  {
    if |b| == 0 {
      assert a + b == a;
    } else {
      var b' := b[..|b| - 1];
      assert (a + b)[..|a + b| - 1] == a + b';
      assert (a + b)[|a + b| - 1] == b[|b| - 1];
      TracesAppend(f, a, b');
    }
  }

  /** One trace per non-empty series, each with one point per value. */
  lemma {:induction false} TracesCount(f: Frame, ds: seq<Series>)
    requires f.NonEmptyRange()
    ensures |Traces(f, ds)| == NonEmptyCount(ds)
    decreases |ds|
  {
    if |ds| > 0 {
      TracesCount(f, ds[..|ds| - 1]);
    }
  }

  /** The trace of a non-empty series sits, among all traces, after those
      of the non-empty series before it. */
  lemma TraceOfSeries(f: Frame, ds: seq<Series>, k: int)
    requires f.NonEmptyRange()
    requires 0 <= k < |ds| && |ds[k].data| > 0
    ensures NonEmptyCount(ds[..k]) < |Traces(f, ds)|
    ensures Traces(f, ds)[NonEmptyCount(ds[..k])] == TraceOf(f, ds[k])
  {
    var before := ds[..k];
    var after := ds[k + 1..];
    assert ds == before + ([ds[k]] + after);
    TracesAppend(f, before, [ds[k]] + after);
    TracesAppend(f, [ds[k]], after);
    assert [ds[k]][..0] == [];
    assert Traces(f, [ds[k]]) == [TraceOf(f, ds[k])];
    TracesCount(f, before);
  }

  // ---------------------------------------------------------------------
  // The drawing

  /** One drawing: a cleared canvas, possibly with a chart on it. */
  datatype Scene =
    | Blank(width: real, height: real)
    | Plot(frame: Frame, rows: seq<GridRow>, ticks: seq<Tick>, traces: seq<Trace>)

  /** True when no series has a value. */
  predicate AllEmpty(ds: seq<Series>) {
    forall k :: 0 <= k < |ds| ==> |ds[k].data| == 0
  }

  /** `draw()` on a canvas of `width` by `height`. Nothing but the clearing
      happens when there are no labels, no series, or no values at all. */
  function Draw(d: ChartData, width: real, height: real): (s: Scene)
    ensures s.Blank? <==> |d.labels| == 0 || |d.datasets| == 0 || AllEmpty(d.datasets)
    ensures s.Blank? ==> s == Blank(width, height)
    ensures s.Plot? ==>
      && s.frame.width == width && s.frame.height == height
      && s.frame.NonEmptyRange()
      && |s.rows| == GridDivisions + 1
      && |s.ticks| >= 1 && s.ticks[0].index == 0
  {
    if |d.labels| == 0 || |d.datasets| == 0 then Blank(width, height)
    else
      var vs := AllValues(d.datasets);
      if |vs| == 0 then Blank(width, height)
      else
        var f := Frame(width, height, PaddedRange(vs));
        TickIndicesAreMultiples(|d.labels|, TickStride(|d.labels|), 0);
        Plot(f, GridRows(f), Ticks(f, d.labels), Traces(f, d.datasets))
  }

  /** Every value of every series lies strictly inside the plotted range,
      so with a plot area of positive height it is plotted strictly between
      the area's top and bottom edges. */
  lemma DrawKeepsValuesInside(d: ChartData, width: real, height: real, k: int, i: int)
    requires |d.labels| > 0
    requires 0 <= k < |d.datasets| && 0 <= i < |d.datasets[k].data|
    ensures Draw(d, width, height).Plot?
    ensures var f := Draw(d, width, height).frame;
      && f.range.lo < d.datasets[k].data[i] < f.range.hi
      && (f.ChartHeight() > 0.0 ==>
            PadTop < MapY(f, d.datasets[k].data[i]) < PadTop + f.ChartHeight())
  {
    assert !AllEmpty(d.datasets) by {
      assert |d.datasets[k].data| > 0;
    }
    var vs := AllValues(d.datasets);
    var v := d.datasets[k].data[i];
    assert v in vs;
    var j :| 0 <= j < |vs| && vs[j] == v;
    var f := Draw(d, width, height).frame;
    if f.ChartHeight() > 0.0 {
      MapYInside(f, v);
    }
  }

  /** A series' points: one per value, spread from the left edge of the
      plot area to its right edge by the series' own length, each at the
      height of its value, left to right. */
  predicate PlacedAlong(f: Frame, pts: seq<Point>, data: seq<real>)
    requires f.NonEmptyRange()
  {
    && |pts| == |data|
    && (|data| > 0 ==> pts[0].x == PadLeft)
    && (|data| >= 2 ==> pts[|data| - 1].x == PadLeft + f.ChartWidth())
    && (forall i :: 0 <= i < |data| ==> pts[i].y == MapY(f, data[i]))
    && (f.ChartWidth() > 0.0 ==> forall i, j :: 0 <= i < j < |data| ==> pts[i].x < pts[j].x)
  }

  lemma PointsPlacedAlong(f: Frame, data: seq<real>)
    requires f.NonEmptyRange()
    ensures PlacedAlong(f, Points(f, data), data)
  {
    var pts := Points(f, data);
    if |data| > 0 {
      MapXEnds(f.ChartWidth(), |data|);
    }
    if f.ChartWidth() > 0.0 {
      forall i, j | 0 <= i < j < |data|
        ensures pts[i].x < pts[j].x
      {
        MapXIncreasing(f.ChartWidth(), i, j, |data|);
      }
    }
  }

  /** The traces of a drawing are those of its series. */
  lemma DrawTraces(d: ChartData, width: real, height: real)
    requires Draw(d, width, height).Plot?
    ensures Draw(d, width, height).traces == Traces(Draw(d, width, height).frame, d.datasets)
  {
  }

  /** A drawing's layout comes from its data as `draw()` computes it: the
      range is the padded range of all the values, the horizontal grid is
      the six rows of that frame, and the vertical grid is placed by the
      labels. */
  lemma DrawLayout(d: ChartData, width: real, height: real)
    requires |d.labels| > 0 && !AllEmpty(d.datasets)
    ensures Draw(d, width, height).Plot?
    ensures var s := Draw(d, width, height);
      && |AllValues(d.datasets)| > 0
      && s.frame == Frame(width, height, PaddedRange(AllValues(d.datasets)))
      && s.rows == GridRows(s.frame)
      && s.ticks == Ticks(s.frame, d.labels)
  {
  }

  /** Series `k`, when it has values, is drawn as the trace after those of
      the non-empty series before it, and its points are placed along its
      own values (not the label count). */
  lemma DrawPlacesSeries(d: ChartData, width: real, height: real, k: int)
    requires |d.labels| > 0
    requires 0 <= k < |d.datasets| && |d.datasets[k].data| > 0
    ensures Draw(d, width, height).Plot?
    ensures var s := Draw(d, width, height);
      var n := NonEmptyCount(d.datasets[..k]);
      n < |s.traces| && PlacedAlong(s.frame, s.traces[n].points, d.datasets[k].data)
  {
    assert !AllEmpty(d.datasets) by {
      assert |d.datasets[k].data| > 0;
    }
    var s := Draw(d, width, height);
    DrawTraces(d, width, height);
    TraceOfSeries(s.frame, d.datasets, k);
    PointsPlacedAlong(s.frame, d.datasets[k].data);
  }

  /** A chart whose values are all equal plots every value at the middle
      height of the plot area. */
  lemma FlatDataPlotsMidway(d: ChartData, width: real, height: real, v: real)
    requires |d.labels| > 0 && |d.datasets| > 0
    requires forall k, i :: 0 <= k < |d.datasets| && 0 <= i < |d.datasets[k].data| ==> d.datasets[k].data[i] == v
    requires !AllEmpty(d.datasets)
    ensures var s := Draw(d, width, height);
      s.Plot? && MapY(s.frame, v) == PadTop + s.frame.ChartHeight() / 2.0
  {
    var vs := AllValues(d.datasets);
    forall i | 0 <= i < |vs|
      ensures vs[i] == v
    {
      var x := vs[i];
      assert x in vs;
      var k :| 0 <= k < |d.datasets| && x in d.datasets[k].data;
      var j :| 0 <= j < |d.datasets[k].data| && d.datasets[k].data[j] == x;
    }
    FlatRange(vs, v);
    var s := Draw(d, width, height);
    assert s.frame.range == PaddedRange(vs);
    MidwayValue(s.frame, v);
  }

  /** Values that are all equal to `v` are padded to `v - 0.1 .. v + 0.1`. */
  lemma FlatRange(vs: seq<real>, v: real)
    requires |vs| > 0 && forall i :: 0 <= i < |vs| ==> vs[i] == v
    ensures PaddedRange(vs) == Range(v - 0.1, v + 0.1)
  {
    assert MinOf(vs) == v == MaxOf(vs);
  }

  /** The middle of a range is plotted at the middle of the plot area. */
  lemma MidwayValue(f: Frame, v: real)
    requires f.range == Range(v - 0.1, v + 0.1)
    ensures f.NonEmptyRange() && MapY(f, v) == PadTop + f.ChartHeight() / 2.0
  {
    assert (v - f.range.lo) / (f.range.hi - f.range.lo) == 0.5;
  }

  // ---------------------------------------------------------------------
  // The canvas calls

  /** The canvas operations a drawing consists of, in the order made. */
  datatype Prim =
    | Clear(width: real, height: real)
    | GridLine(from: Point, to: Point)
    | ValueLabel(value: real, at: Point)
    | TickLabel(text: string, at: Point)
    | FillArea(outline: seq<Point>, color: string)
    | Polyline(vertices: seq<Point>, color: string, lineWidth: real)
    | Dot(center: Point, radius: real, color: string)

  /** The horizontal grid's canvas calls: per row, top to bottom, the line
      across the plot area and the value label just left of it. */
  function RowPrims(f: Frame, rows: seq<GridRow>): (ps: seq<Prim>)
    ensures |ps| == 2 * |rows|
    ensures forall k :: 0 <= k < |rows| ==>
      ps[2 * k] == GridLine(Point(PadLeft, rows[k].y), Point(f.width - PadRight, rows[k].y))
    ensures forall k :: 0 <= k < |rows| ==>
      ps[2 * k + 1] == ValueLabel(rows[k].value, Point(PadLeft - 8.0, rows[k].y + 4.0))
  {
    if |rows| == 0 then []
    else
      var r := rows[0];
      var rest := RowPrims(f, rows[1..]);
      assert forall k :: 1 <= k < |rows| ==> rows[1..][k - 1] == rows[k];
      [GridLine(Point(PadLeft, r.y), Point(f.width - PadRight, r.y)),
       ValueLabel(r.value, Point(PadLeft - 8.0, r.y + 4.0))] + rest
  }

  /** The vertical grid's canvas calls: per tick, left to right, the line
      from the top of the plot area to its bottom and the label under it. */
  function TickPrims(f: Frame, ticks: seq<Tick>): (ps: seq<Prim>)
    ensures |ps| == 2 * |ticks|
    ensures forall j :: 0 <= j < |ticks| ==>
      ps[2 * j] == GridLine(Point(ticks[j].x, PadTop), Point(ticks[j].x, f.Baseline()))
    ensures forall j :: 0 <= j < |ticks| ==>
      ps[2 * j + 1] == TickLabel(ticks[j].text, Point(ticks[j].x, f.Baseline() + 15.0))
  {
    if |ticks| == 0 then []
    else
      var t := ticks[0];
      var rest := TickPrims(f, ticks[1..]);
      assert forall j :: 1 <= j < |ticks| ==> ticks[1..][j - 1] == ticks[j];
      [GridLine(Point(t.x, PadTop), Point(t.x, f.Baseline())),
       TickLabel(t.text, Point(t.x, f.Baseline() + 15.0))] + rest
  }

  function Dots(pts: seq<Point>, color: string): (ds: seq<Prim>)
    ensures |ds| == |pts|
    ensures forall i :: 0 <= i < |pts| ==> ds[i] == Dot(pts[i], MarkerRadius, color)
  {
    seq(|pts|, i requires 0 <= i < |pts| => Dot(pts[i], MarkerRadius, color))
  }

  /** The area under the curve: down at the left edge, along the points,
      down at the right edge of the plot area. */
  function Outline(f: Frame, pts: seq<Point>): seq<Point> {
    [Point(PadLeft, f.Baseline())] + pts + [Point(PadLeft + f.ChartWidth(), f.Baseline())]
  }

  /** The area's outline starts at the bottom-left corner of the plot
      area, runs through the points in order, and ends at the bottom-right
      corner. */
  lemma OutlineShape(f: Frame, pts: seq<Point>)
    ensures var o := Outline(f, pts);
      && |o| == |pts| + 2
      && o[0] == Point(PadLeft, f.Baseline())
      && o[1..|o| - 1] == pts
      && o[|o| - 1] == Point(PadLeft + f.ChartWidth(), f.Baseline())
  {
    var o := Outline(f, pts);
    assert o[1..|o| - 1] == pts;
  }

  /** A trace's canvas calls: the filled area, the line, one dot per point. */
  function TracePrims(f: Frame, t: Trace): (ps: seq<Prim>)
    ensures |ps| == |t.points| + 2
    ensures ps[0] == FillArea(Outline(f, t.points), t.fillColor)
    ensures ps[1] == Polyline(t.points, t.lineColor, LineWidth)
    ensures forall i :: 0 <= i < |t.points| ==> ps[i + 2] == Dot(t.points[i], MarkerRadius, t.lineColor)
  {
    [FillArea(Outline(f, t.points), t.fillColor), Polyline(t.points, t.lineColor, LineWidth)]
      + Dots(t.points, t.lineColor)
  }

  /** Where trace `j`'s canvas calls begin among those of `ts`: after the
      two calls and the dots of every trace before it. */
  function TraceOffset(ts: seq<Trace>, j: nat): nat
    requires j <= |ts|
  {
    if j == 0 then 0 else |ts[0].points| + 2 + TraceOffset(ts[1..], j - 1)
  }

  /** The traces' canvas calls, trace after trace in array order (so a
      later series is painted over an earlier one, as `TracesInOrder`
      states): two calls per trace (the area and the line) and one per
      point. */
  function TracesPrims(f: Frame, ts: seq<Trace>): (ps: seq<Prim>)
    ensures |ps| == PointCount(ts) + 2 * |ts|
  {
    if |ts| == 0 then [] else TracePrims(f, ts[0]) + TracesPrims(f, ts[1..])
  }

  /** Trace `j`'s canvas calls sit, whole, right after those of the traces
      before it and right before those of the traces after it. */
  lemma TracesInOrder(f: Frame, ts: seq<Trace>, j: nat)
    requires j < |ts|
    ensures var ps := TracesPrims(f, ts);
      && TraceOffset(ts, j) <= TraceOffset(ts, j + 1) <= |ps|
      && ps[TraceOffset(ts, j)..TraceOffset(ts, j + 1)] == TracePrims(f, ts[j])
  {
    var bs := TraceBlocks(f, ts);
    TracesPrimsFlatten(f, ts);
    TraceOffsetIsBlockStart(f, ts, j);
    TraceOffsetIsBlockStart(f, ts, j + 1);
    FlattenBlock(bs, j);
  }

  /** Each trace's canvas calls, as one block per trace. */
  function TraceBlocks(f: Frame, ts: seq<Trace>): (bs: seq<seq<Prim>>)
    ensures |bs| == |ts|
    ensures forall j :: 0 <= j < |ts| ==> bs[j] == TracePrims(f, ts[j])
  {
    seq(|ts|, j requires 0 <= j < |ts| => TracePrims(f, ts[j]))
  }

  lemma {:induction false} TracesPrimsFlatten(f: Frame, ts: seq<Trace>)
    ensures TracesPrims(f, ts) == Flatten(TraceBlocks(f, ts))
    decreases |ts|
  {
    if |ts| > 0 {
      TracesPrimsFlatten(f, ts[1..]);
      assert TraceBlocks(f, ts)[1..] == TraceBlocks(f, ts[1..]);
    }
  }

  lemma {:induction false} TraceOffsetIsBlockStart(f: Frame, ts: seq<Trace>, j: nat)
    requires j <= |ts|
    ensures TraceOffset(ts, j) == BlockStart(TraceBlocks(f, ts), j)
    decreases j
  {
    if j > 0 {
      TraceOffsetIsBlockStart(f, ts[1..], j - 1);
      assert TraceBlocks(f, ts)[1..] == TraceBlocks(f, ts[1..]);
    }
  }

  /** The blocks one after the other. */
  function Flatten<T>(bs: seq<seq<T>>): seq<T> {
    if |bs| == 0 then [] else bs[0] + Flatten(bs[1..])
  }

  /** Where block `j` begins in the flattened blocks. */
  function BlockStart<T>(bs: seq<seq<T>>, j: nat): nat
    requires j <= |bs|
  {
    if j == 0 then 0 else |bs[0]| + BlockStart(bs[1..], j - 1)
  }

  /** Block `j` sits, whole, between its start and the next block's. */
  lemma {:induction false} FlattenBlock<T>(bs: seq<seq<T>>, j: nat)
    requires j < |bs|
    ensures BlockStart(bs, j) <= BlockStart(bs, j + 1) <= |Flatten(bs)|
    ensures Flatten(bs)[BlockStart(bs, j)..BlockStart(bs, j + 1)] == bs[j]
    decreases j
  {
    var x := bs[0];
    var y := Flatten(bs[1..]);
    assert Flatten(bs) == x + y;
    if j == 0 {
      assert BlockStart(bs[1..], 0) == 0;
      assert (x + y)[0..|x|] == x;
    } else {
      FlattenBlock(bs[1..], j - 1);
      var a := BlockStart(bs[1..], j - 1);
      var b := BlockStart(bs[1..], j);
      assert bs[1..][j - 1] == bs[j];
      assert (x + y)[|x| + a..|x| + b] == y[a..b];
    }
  }

  /** The canvas calls of a scene, in the order `draw()` makes them: the
      canvas is cleared first; a chart then gets its horizontal grid, its
      vertical grid, and last its traces. */
  function Render(s: Scene): (ps: seq<Prim>)
    ensures s.Blank? ==> ps == [Clear(s.width, s.height)]
    ensures s.Plot? ==>
      var rowsEnd := 1 + 2 * |s.rows|;
      var ticksEnd := rowsEnd + 2 * |s.ticks|;
      && |ps| == ticksEnd + PointCount(s.traces) + 2 * |s.traces|
      && ps[0] == Clear(s.frame.width, s.frame.height)
      && ps[1..rowsEnd] == RowPrims(s.frame, s.rows)
      && ps[rowsEnd..ticksEnd] == TickPrims(s.frame, s.ticks)
      && ps[ticksEnd..] == TracesPrims(s.frame, s.traces)
  {
    match s
    case Blank(w, h) => [Clear(w, h)]
    case Plot(f, rows, ticks, traces) =>
      var a := RowPrims(f, rows);
      var b := TickPrims(f, ticks);
      var c := TracesPrims(f, traces);
      var ps := [Clear(f.width, f.height)] + a + b + c;
      assert ps[1..1 + |a|] == a;
      assert ps[1 + |a|..1 + |a| + |b|] == b;
      assert ps[1 + |a| + |b|..] == c;
      ps
  }

  /** A drawn chart's canvas calls place the horizontal grid as `draw()`
      does: right after the clearing, per row the line across the plot
      area at the row's height, then the value label 8 units left of the
      plot area and 4 below the line. */
  lemma RenderedRows(s: Scene)
    requires s.Plot?
    ensures var ps := Render(s);
      forall k :: 0 <= k < |s.rows| ==>
        && ps[1 + 2 * k] == GridLine(Point(PadLeft, s.rows[k].y), Point(s.frame.width - PadRight, s.rows[k].y))
        && ps[2 + 2 * k] == ValueLabel(s.rows[k].value, Point(PadLeft - 8.0, s.rows[k].y + 4.0))
  {
    var ps := Render(s);
    var a := RowPrims(s.frame, s.rows);
    assert ps[1..1 + 2 * |s.rows|] == a;
    forall k | 0 <= k < |s.rows|
      ensures ps[1 + 2 * k] == GridLine(Point(PadLeft, s.rows[k].y), Point(s.frame.width - PadRight, s.rows[k].y))
      ensures ps[2 + 2 * k] == ValueLabel(s.rows[k].value, Point(PadLeft - 8.0, s.rows[k].y + 4.0))
    {
      PairInSlice(ps, 1, 1 + 2 * |s.rows|, a, k);
    }
  }

  /** Where a slice is known, the pair at `2k, 2k + 1` of the slice is the
      pair at the same place shifted by the slice's start. */
  lemma PairInSlice<T>(ps: seq<T>, start: nat, end: nat, b: seq<T>, k: nat)
    requires start <= end <= |ps| && ps[start..end] == b && 2 * k + 1 < |b|
    ensures ps[start + 2 * k] == b[2 * k] && ps[start + 2 * k + 1] == b[2 * k + 1]
  {
    assert ps[start..end][2 * k] == b[2 * k];
    assert ps[start..end][2 * k + 1] == b[2 * k + 1];
  }

  /** After the horizontal grid, the canvas calls place the vertical grid
      as `draw()` does: per tick the line from the top of the plot area
      down to its bottom edge, then the label 15 units under that edge. */
  lemma RenderedTicks(s: Scene)
    requires s.Plot?
    ensures var ps := Render(s);
      var start := 1 + 2 * |s.rows|;
      forall j :: 0 <= j < |s.ticks| ==>
        && ps[start + 2 * j] == GridLine(Point(s.ticks[j].x, PadTop), Point(s.ticks[j].x, s.frame.Baseline()))
        && ps[start + 2 * j + 1] == TickLabel(s.ticks[j].text, Point(s.ticks[j].x, s.frame.Baseline() + 15.0))
  {
    var ps := Render(s);
    var start := 1 + 2 * |s.rows|;
    var end := start + 2 * |s.ticks|;
    var b := TickPrims(s.frame, s.ticks);
    assert ps[start..end] == b;
    forall j | 0 <= j < |s.ticks|
      ensures ps[start + 2 * j] == GridLine(Point(s.ticks[j].x, PadTop), Point(s.ticks[j].x, s.frame.Baseline()))
      ensures ps[start + 2 * j + 1] == TickLabel(s.ticks[j].text, Point(s.ticks[j].x, s.frame.Baseline() + 15.0))
    {
      PairInSlice(ps, start, end, b, j);
    }
  }

  /** The number of dots among some canvas calls. */
  function DotCount(ps: seq<Prim>): nat {
    if |ps| == 0 then 0 else (if ps[0].Dot? then 1 else 0) + DotCount(ps[1..])
  }

  /** The number of values over all series. */
  function ValueCount(ds: seq<Series>): nat {
    if |ds| == 0 then 0 else ValueCount(ds[..|ds| - 1]) + |ds[|ds| - 1].data|
  }

  lemma {:induction false} DotCountAppend(a: seq<Prim>, b: seq<Prim>)
    ensures DotCount(a + b) == DotCount(a) + DotCount(b)
    decreases |a|
  {
    if |a| == 0 {
      assert a + b == b;
    } else {
      assert (a + b)[1..] == a[1..] + b;
      DotCountAppend(a[1..], b);
    }
  }

  lemma {:induction false} DotCountOfDots(pts: seq<Point>, color: string)
    ensures DotCount(Dots(pts, color)) == |pts|
    decreases |pts|
  {
    if |pts| > 0 {
      assert Dots(pts, color)[1..] == Dots(pts[1..], color);
      DotCountOfDots(pts[1..], color);
    }
  }

  lemma {:induction false} NoDotsInGrid(f: Frame, rows: seq<GridRow>, ticks: seq<Tick>)
    ensures DotCount(RowPrims(f, rows)) == 0
    ensures DotCount(TickPrims(f, ticks)) == 0
    decreases |rows| + |ticks|
  {
    if |rows| > 0 {
      NoDotsInGrid(f, rows[1..], ticks);
      DotCountAppend(RowPrims(f, rows)[..2], RowPrims(f, rows[1..]));
    }
    if |ticks| > 0 {
      NoDotsInGrid(f, rows, ticks[1..]);
      DotCountAppend(TickPrims(f, ticks)[..2], TickPrims(f, ticks[1..]));
    }
  }

  lemma {:induction false} DotCountOfTraces(f: Frame, ts: seq<Trace>)
    ensures DotCount(TracesPrims(f, ts)) == PointCount(ts)
    decreases |ts|
  {
    if |ts| > 0 {
      var t := ts[0];
      var head := [FillArea(Outline(f, t.points), t.fillColor), Polyline(t.points, t.lineColor, LineWidth)];
      DotCountAppend(head, Dots(t.points, t.lineColor));
      DotCountOfDots(t.points, t.lineColor);
      assert DotCount(head) == 0 by {
        assert head[1..][1..] == [];
      }
      DotCountAppend(TracePrims(f, t), TracesPrims(f, ts[1..]));
      DotCountOfTraces(f, ts[1..]);
    }
  }

  /** The number of points over some traces. */
  function PointCount(ts: seq<Trace>): nat {
    if |ts| == 0 then 0 else |ts[0].points| + PointCount(ts[1..])
  }

  lemma {:induction false} PointCountAppend(a: seq<Trace>, b: seq<Trace>)
    ensures PointCount(a + b) == PointCount(a) + PointCount(b)
    decreases |a|
  {
    if |a| == 0 {
      assert a + b == b;
    } else {
      assert (a + b)[1..] == a[1..] + b;
      PointCountAppend(a[1..], b);
    }
  }

  lemma {:induction false} PointCountOfTraces(f: Frame, ds: seq<Series>)
    requires f.NonEmptyRange()
    ensures PointCount(Traces(f, ds)) == ValueCount(ds)
    decreases |ds|
  {
    if |ds| > 0 {
      var last := ds[|ds| - 1];
      PointCountOfTraces(f, ds[..|ds| - 1]);
      var tail: seq<Trace> := if |last.data| == 0 then [] else [TraceOf(f, last)];
      PointCountAppend(Traces(f, ds[..|ds| - 1]), tail);
    }
  }

  /** A drawn chart puts exactly one dot on the canvas per value of its
      series. */
  lemma DotsPerValue(d: ChartData, width: real, height: real)
    requires |d.labels| > 0 && !AllEmpty(d.datasets)
    ensures Draw(d, width, height).Plot?
    ensures DotCount(Render(Draw(d, width, height))) == ValueCount(d.datasets)
  {
    var s := Draw(d, width, height);
    var f := s.frame;
    NoDotsInGrid(f, s.rows, s.ticks);
    DotCountOfTraces(f, s.traces);
    PointCountOfTraces(f, d.datasets);
    var a := [Clear(f.width, f.height)];
    DotCountAppend(a, RowPrims(f, s.rows));
    DotCountAppend(a + RowPrims(f, s.rows), TickPrims(f, s.ticks));
    DotCountAppend(a + RowPrims(f, s.rows) + TickPrims(f, s.ticks), TracesPrims(f, s.traces));
  }
}

=== FILE: chart_widget.dfy ===
/** The life of one `SimpleChart` (simple-chart.js): it is created on a
    canvas, redrawn when the window is resized while it listens, redrawn
    when the page updates its data, and stops listening when destroyed.
    The drawings a chart makes are returned as scenes. */
module ChartWidget {
  import opened Chart

  /** A chart: the data it draws, the size it last took from its parent
      element, and whether its window-resize handler is registered. */
  datatype Widget = Widget(data: ChartData, width: real, height: real, listening: bool)

  /** What can happen to a chart after it is created. */
  datatype Event =
    | Resized(width: real, height: real)   // the window is resized; the parent now has this size
    | Updated(data: ChartData)             // the page replaces the data and calls `update()`
    | Destroyed                            // the page calls `destroy()`

  /** A chart and the drawings some events made, in order. */
  datatype Outcome = Outcome(widget: Widget, drawn: seq<Scene>)

  /** The constructor on a canvas whose parent is `width` by `height`: the
      size is taken and drawn by `resize()`, the handler is registered, and
      the chart is drawn once more. */
  function Create(data: ChartData, width: real, height: real): (o: Outcome)
    ensures o.widget.listening
    ensures o.widget.data == data && o.widget.width == width && o.widget.height == height
    ensures |o.drawn| == 2
    ensures forall i :: 0 <= i < 2 ==> o.drawn[i] == Draw(data, width, height)
  {
    var w := Widget(data, width, height, true);
    Outcome(w, [Draw(data, width, height), Draw(data, width, height)])
  }

  /** One event. A resize reaches the chart only through its registered
      handler; `update()` draws whether or not the handler is registered;
      `destroy()` unregisters the handler and draws nothing. */
  function Step(w: Widget, e: Event): (o: Outcome)
    ensures e.Resized? ==>
      (w.listening <==> |o.drawn| == 1)
      && (w.listening ==> o.widget == w.(width := e.width, height := e.height)
                          && o.drawn[0] == Draw(w.data, e.width, e.height))
      && (!w.listening ==> o == Outcome(w, []))
    ensures e.Updated? ==>
      o.widget == w.(data := e.data) && o.drawn == [Draw(e.data, w.width, w.height)]
    ensures e.Destroyed? ==> o == Outcome(w.(listening := false), [])
  {
    match e
    case Resized(width, height) =>
      if w.listening then
        var r := w.(width := width, height := height);
        Outcome(r, [Draw(r.data, width, height)])
      else Outcome(w, [])
    case Updated(data) =>
      var r := w.(data := data);
      Outcome(r, [Draw(data, w.width, w.height)])
    case Destroyed =>
      Outcome(w.(listening := false), [])
  }

  /** The events one after the other, the drawings collected in order. */
  function Run(w: Widget, es: seq<Event>): Outcome
    decreases |es|
  {
    if |es| == 0 then Outcome(w, [])
    else
      var first := Step(w, es[0]);
      var rest := Run(first.widget, es[1..]);
      Outcome(rest.widget, first.drawn + rest.drawn)
  }

  predicate AllResizes(es: seq<Event>) {
    forall i :: 0 <= i < |es| ==> es[i].Resized?
  }

  /** Nothing registers the handler again: a chart that has stopped
      listening stays that way whatever happens to it. */
  lemma {:induction false} DestroyedStaysDestroyed(w: Widget, es: seq<Event>)
    requires !w.listening
    ensures !Run(w, es).widget.listening
    decreases |es|
  {
    if |es| > 0 {
      DestroyedStaysDestroyed(Step(w, es[0]).widget, es[1..]);
    }
  }

  /** After `destroy()`, window resizes neither redraw the chart nor change
      its size. */
  lemma {:induction false} ResizeAfterDestroyIsSilent(w: Widget, es: seq<Event>)
    requires !w.listening && AllResizes(es)
    ensures Run(w, es) == Outcome(w, [])
    decreases |es|
  {
    if |es| > 0 {
      ResizeAfterDestroyIsSilent(w, es[1..]);
    }
  }

  /** While the handler is registered, every window resize redraws the
      chart once, and the chart ends up with the size of the last resize. */
  lemma {:induction false} ResizeWhileListening(w: Widget, es: seq<Event>)
    requires w.listening && AllResizes(es)
    ensures var o := Run(w, es);
      && |o.drawn| == |es|
      && o.widget.listening && o.widget.data == w.data
      && (|es| > 0 ==> o.widget.width == es[|es| - 1].width && o.widget.height == es[|es| - 1].height)
      && (forall i :: 0 <= i < |es| ==> o.drawn[i] == Draw(w.data, es[i].width, es[i].height))
    decreases |es|
  {
    if |es| > 0 {
      var first := Step(w, es[0]);
      ResizeWhileListening(first.widget, es[1..]);
      var rest := Run(first.widget, es[1..]);
      assert Run(w, es).drawn == first.drawn + rest.drawn;
      forall i | 1 <= i < |es|
        ensures Run(w, es).drawn[i] == Draw(w.data, es[i].width, es[i].height)
      {
        assert es[1..][i - 1] == es[i];
      }
    }
  }

  /** A chart created and then destroyed has drawn itself twice and no
      longer listens, so later resizes leave it alone. */
  lemma CreateThenDestroy(data: ChartData, width: real, height: real, es: seq<Event>)
    requires AllResizes(es)
    ensures var c := Create(data, width, height);
      var d := Step(c.widget, Destroyed);
      && !d.widget.listening
      && |c.drawn + d.drawn| == 2
      && Run(d.widget, es) == Outcome(d.widget, [])
  {
    var c := Create(data, width, height);
    ResizeAfterDestroyIsSilent(Step(c.widget, Destroyed).widget, es);
  }
}

=== FILE: dashboard.dfy ===
/** The game's three charts (game.js `initCharts`, `updateCharts`): the
    price history and each player's total-asset history, each drawn as a
    single series against one day label per recorded day. */
module Dashboard {
  import opened Game
  import DayLabels
  import opened Chart
  import opened ChartWidget

  const PriceLine: string := "#00d9ff"
  const PriceFill: string := "rgba(0, 217, 255, 0.1)"
  const FirstPlayerLine: string := "#00ff88"
  const FirstPlayerFill: string := "rgba(0, 255, 136, 0.1)"
  const SecondPlayerLine: string := "#ff9900"
  const SecondPlayerFill: string := "rgba(255, 153, 0, 0.1)"

  /** The price chart's data: the day labels and the price history. */
  function PriceChart(g: GameState): (c: ChartData)
    ensures c.labels == DayLabels.Labels(|g.priceHistory|)
    ensures |c.datasets| == 1 && c.datasets[0].data == g.priceHistory
    ensures c.datasets[0].borderColor == PriceLine && c.datasets[0].backgroundColor == PriceFill
  {
    ChartData(DayLabels.Labels(|g.priceHistory|), [Series(g.priceHistory, PriceLine, PriceFill)])
  }

  /** Player `who`'s chart data: the day labels and the player's totals. */
  function PlayerChart(g: GameState, who: nat): (c: ChartData)
    requires who < |g.players| && who < 2
    ensures c.labels == DayLabels.Labels(|g.priceHistory|)
    ensures |c.datasets| == 1 && c.datasets[0].data == g.players[who].totalHistory
    ensures c.datasets[0].borderColor == (if who == 0 then FirstPlayerLine else SecondPlayerLine)
  {
    var line := if who == 0 then FirstPlayerLine else SecondPlayerLine;
    var fill := if who == 0 then FirstPlayerFill else SecondPlayerFill;
    ChartData(DayLabels.Labels(|g.priceHistory|), [Series(g.players[who].totalHistory, line, fill)])
  }

  /** A chart of one series with one label per value. */
  predicate OneSeriesPerLabel(c: ChartData) {
    |c.datasets| == 1 && |c.labels| == |c.datasets[0].data| >= 1
  }

  /** A drawing of one trace whose vertical grid lines each pass through
      the trace's point at the labelled position. */
  predicate TicksMeetPoints(s: Scene) {
    && s.Plot? && |s.traces| == 1
    && forall j :: 0 <= j < |s.ticks| ==>
         s.ticks[j].index < |s.traces[0].points|
         && s.ticks[j].x == s.traces[0].points[s.ticks[j].index].x
  }

  /** A chart of one series with one label per value is drawn, with a
      single trace: that of its series. */
  lemma OneSeriesTrace(c: ChartData, width: real, height: real)
    requires OneSeriesPerLabel(c)
    ensures var s := Draw(c, width, height);
      s.Plot? && s.traces == [TraceOf(s.frame, c.datasets[0])]
  {
    assert |c.datasets[0].data| > 0;
    assert !AllEmpty(c.datasets);
    var s := Draw(c, width, height);
    assert s.traces == Traces(s.frame, c.datasets);
    SingleTrace(s.frame, c.datasets);
  }

  lemma SingleTrace(f: Frame, ds: seq<Series>)
    requires f.NonEmptyRange() && |ds| == 1 && |ds[0].data| > 0
    ensures Traces(f, ds) == [TraceOf(f, ds[0])]
  {
    assert ds[..0] == [];
  }

  /** Such a chart puts one dot on the canvas per label. */
  lemma OneSeriesDots(c: ChartData, width: real, height: real)
    requires OneSeriesPerLabel(c)
    ensures DotCount(Render(Draw(c, width, height))) == |c.labels|
  {
    OneSeriesTrace(c, width, height);
    assert !AllEmpty(c.datasets) by {
      assert |c.datasets[0].data| > 0;
    }
    DotsPerValue(c, width, height);
    assert c.datasets[..|c.datasets| - 1] == [];
  }

  /** In such a chart every vertical grid line passes through the point of
      the labelled position: ticks are placed by the label count, points by
      the series length, and the two agree. */
  lemma OneSeriesTicksMeetPoints(c: ChartData, width: real, height: real)
    requires OneSeriesPerLabel(c)
    ensures TicksMeetPoints(Draw(c, width, height))
  {
    OneSeriesTrace(c, width, height);
    var s := Draw(c, width, height);
    var f := s.frame;
    var pts := Points(f, c.datasets[0].data);
    assert s.traces[0].points == pts;
    var idx := TickIndices(0, |c.labels|, TickStride(|c.labels|));
    assert s.ticks == Ticks(f, c.labels);
    forall j | 0 <= j < |s.ticks|
      ensures s.ticks[j].index < |pts| && s.ticks[j].x == pts[s.ticks[j].index].x
    {
      assert s.ticks[j] == Tick(idx[j], MapX(f.ChartWidth(), idx[j], |c.labels|), c.labels[idx[j]]);
    }
  }

  /** In every valid game the three charts have one label per recorded day
      and one value per label, so all three are drawn, with one dot per
      day so far, and their vertical grid lines meet the labelled days'
      points. */
  lemma GameChartsAlign(g: GameState, width: real, height: real)
    requires Valid(g)
    ensures OneSeriesPerLabel(PriceChart(g)) && |PriceChart(g).labels| == g.currentDay
    ensures forall who :: 0 <= who < 2 ==>
      OneSeriesPerLabel(PlayerChart(g, who)) && |PlayerChart(g, who).labels| == g.currentDay
    ensures TicksMeetPoints(Draw(PriceChart(g), width, height))
    ensures forall who :: 0 <= who < 2 ==> TicksMeetPoints(Draw(PlayerChart(g, who), width, height))
    ensures DotCount(Render(Draw(PriceChart(g), width, height))) == g.currentDay
    ensures forall who :: 0 <= who < 2 ==>
      DotCount(Render(Draw(PlayerChart(g, who), width, height))) == g.currentDay
  {
    OneSeriesTicksMeetPoints(PriceChart(g), width, height);
    OneSeriesDots(PriceChart(g), width, height);
    forall who | 0 <= who < 2
      ensures OneSeriesPerLabel(PlayerChart(g, who))
      ensures DotCount(Render(Draw(PlayerChart(g, who), width, height))) == g.currentDay
      ensures TicksMeetPoints(Draw(PlayerChart(g, who), width, height))
    {
      assert AccountOk(g.players[who], g.currentDay);
      OneSeriesDots(PlayerChart(g, who), width, height);
      OneSeriesTicksMeetPoints(PlayerChart(g, who), width, height);
    }
  }

  /** The page's three chart handles. */
  datatype Charts = Charts(price: Widget, first: Widget, second: Widget)

  /** `updateCharts()`: each chart gets the game's current labels and
      series and is redrawn, the price chart first. */
  function UpdateCharts(g: GameState, c: Charts): (o: (Charts, seq<Scene>))
    requires |g.players| == 2
    ensures o.0.price == c.price.(data := PriceChart(g))
    ensures o.0.first == c.first.(data := PlayerChart(g, 0))
    ensures o.0.second == c.second.(data := PlayerChart(g, 1))
    ensures o.1 == [Draw(PriceChart(g), c.price.width, c.price.height),
                    Draw(PlayerChart(g, 0), c.first.width, c.first.height),
                    Draw(PlayerChart(g, 1), c.second.width, c.second.height)]
  {
    var p := Step(c.price, Updated(PriceChart(g)));
    var a := Step(c.first, Updated(PlayerChart(g, 0)));
    var b := Step(c.second, Updated(PlayerChart(g, 1)));
    (Charts(p.widget, a.widget, b.widget), [p.drawn[0], a.drawn[0], b.drawn[0]])
  }

  /** After a new day, the charts show one more day than before. */
  lemma NewDayAddsOnePoint(g: GameState, isRise: bool, c: Charts)
    requires Valid(g) && !g.gameOver
    ensures var h := NextDay(g, isRise);
      var o := UpdateCharts(h, c);
      && |o.0.price.data.labels| == g.currentDay + 1
      && o.0.price.data.datasets[0].data == g.priceHistory + [h.currentPrice]
      && |o.0.first.data.datasets[0].data| == g.currentDay + 1
      && |o.0.second.data.datasets[0].data| == g.currentDay + 1
  {
    var h := NextDay(g, isRise);
    NextDayPreservesValid(g, isRise);
    assert AccountOk(h.players[0], h.currentDay);
    assert AccountOk(h.players[1], h.currentDay);
  }
}

=== FILE: day_labels.dfy ===
/** The x-axis labels of the game's charts: one label per recorded day,
    the i-th (from 0) reading "第{i+1}天", i.e. "day i+1". */
module DayLabels {

  const DayPrefix: char := '第'
  const DaySuffix: char := '天'

  predicate IsDigit(c: char) {
    '0' <= c <= '9'
  }

  function DigitChar(d: nat): (c: char)
    requires d < 10
    ensures IsDigit(c)
  {
    (48 + d) as char
  }

  function DigitValue(c: char): (d: nat)
    requires IsDigit(c)
    ensures d < 10
  {
    (c as int - 48) as nat
  }

  /** The decimal text of `n`, as JavaScript's template interpolation
      writes a non-negative integer (no sign, no leading zeros). */
  function Decimal(n: nat): (s: string)
    ensures |s| > 0
    ensures forall i :: 0 <= i < |s| ==> IsDigit(s[i])
    ensures n >= 1 ==> s[0] != '0'
    ensures n == 0 ==> s == "0"
  {
    if n < 10 then [DigitChar(n)] else Decimal(n / 10) + [DigitChar(n % 10)]
  }

  /** The number a non-empty string of decimal digits denotes. */
  function ValueOf(s: string): nat
    requires |s| > 0
    requires forall i :: 0 <= i < |s| ==> IsDigit(s[i])
  {
    if |s| == 1 then DigitValue(s[0])
    else ValueOf(s[..|s| - 1]) * 10 + DigitValue(s[|s| - 1])
  }

  /** Reading back the decimal text of `n` yields `n`. */
  lemma {:induction false} DecimalRoundTrip(n: nat)
    ensures ValueOf(Decimal(n)) == n
  {
    if n >= 10 {
      var s := Decimal(n);
      assert s[..|s| - 1] == Decimal(n / 10);
      DecimalRoundTrip(n / 10);
    }
  }

  /** The label of the day with 0-based index `i`. */
  function DayLabel(i: nat): (s: string)
    ensures |s| >= 3 && s[0] == DayPrefix && s[|s| - 1] == DaySuffix
    ensures s[1..|s| - 1] == Decimal(i + 1)
  {
    [DayPrefix] + Decimal(i + 1) + [DaySuffix]
  }

  /** `priceHistory.map((_, index) => ...)`: one label per history entry. */
  function Labels(n: nat): (ls: seq<string>)
    ensures |ls| == n
    ensures forall i :: 0 <= i < n ==> ls[i] == DayLabel(i)
  {
    seq(n, i requires 0 <= i => DayLabel(i))
  }

  /** Different days get different labels. */
  lemma DayLabelInjective(i: nat, j: nat)
    requires DayLabel(i) == DayLabel(j)
    ensures i == j
  {
    var s := DayLabel(i);
    DecimalRoundTrip(i + 1);
    DecimalRoundTrip(j + 1);
    assert Decimal(i + 1) == s[1..|s| - 1] == Decimal(j + 1);
  }

  /** The labels of a chart never repeat. */
  lemma LabelsDistinct(n: nat)
    ensures forall i, j :: 0 <= i < j < n ==> Labels(n)[i] != Labels(n)[j]
  {
    forall i, j | 0 <= i < j < n
      ensures Labels(n)[i] != Labels(n)[j]
    {
      if Labels(n)[i] == Labels(n)[j] {
        DayLabelInjective(i, j);
      }
    }
  }
}

=== FILE: game.dfy ===
/** The state of the two-player stock game and its day-to-day transitions
    (game.js): the price moves by ten percent a day, every player's total
    assets are recorded once a day, and the game ends after the configured
    number of days, the richer player winning. */
module Game {
  import opened Money

  /** One player's holdings; `totalHistory` holds the player's total assets
      (cash plus shares at the current price), one entry per day. */
  datatype Account = Account(cash: real, shares: int, totalHistory: seq<real>)

  /** The page's `gameState` record. The first four fields are the setup
      form's values; the rest is the game in play. */
  datatype GameState = GameState(
    initialPrice: real,
    gameDays: int,
    initialFunds: real,
    riseProbability: real,
    currentDay: int,
    currentPrice: real,
    priceHistory: seq<real>,
    players: seq<Account>,
    gameOver: bool)

  /** The lowest price the stock can reach. */
  const PriceFloor: real := 0.01
  /** The daily price change, as a fraction of the price. */
  const DailyChange: real := 0.10

  /** The record the page holds before any game has been started. */
  const Unstarted: GameState :=
    GameState(100.0, 30, 10000.0, 50.0, 1, 100.0, [],
              [Account(10000.0, 0, []), Account(10000.0, 0, [])], false)

  /** A player's total assets at `price` (cash plus the shares' value). */
  function Wealth(a: Account, price: real): real {
    a.cash + a.shares as real * price
  }

  /** A player without shares is worth their cash; one holding shares is
      worth at least their cash at a non-negative price, and no less at a
      higher price. */
  lemma WealthMonotone(a: Account, p: real, q: real)
    requires a.shares >= 0 && 0.0 <= p <= q
    ensures a.shares == 0 ==> Wealth(a, p) == a.cash
    ensures a.cash <= Wealth(a, p) <= Wealth(a, q)
  {
    assert a.shares as real * p >= 0.0;
    assert a.shares as real * (q - p) >= 0.0;
  }

  /** A player of a game on day `day`: nothing owed, nothing shorted, and
      one recorded total per day so far. */
  predicate AccountOk(a: Account, day: int) {
    a.cash >= 0.0 && a.shares >= 0 && |a.totalHistory| == day
  }

  /** What holds of a started game at every moment: two players, a positive
      price that is the last recorded one, and every history (prices, each
      player's totals) holding exactly one entry per day so far. */
  predicate Consistent(g: GameState) {
    && |g.players| == 2
    && g.currentDay >= 1
    && |g.priceHistory| == g.currentDay
    && g.currentPrice > 0.0
    && g.priceHistory[|g.priceHistory| - 1] == g.currentPrice
    && (forall i :: 0 <= i < |g.players| ==> AccountOk(g.players[i], g.currentDay))
  }

  /** A game in play: consistent, and over exactly when the day counter
      has passed the configured number of days. */
  predicate Valid(g: GameState) {
    && Consistent(g)
    && g.gameDays >= 1
    && g.currentDay <= g.gameDays + 1
    && (g.gameOver <==> g.currentDay > g.gameDays)
  }

  /** The setup fields of two records agree. */
  predicate SameSetup(g: GameState, h: GameState) {
    && h.initialPrice == g.initialPrice
    && h.gameDays == g.gameDays
    && h.initialFunds == g.initialFunds
    && h.riseProbability == g.riseProbability
  }

  /** The play fields of two records agree. */
  predicate SamePlay(g: GameState, h: GameState) {
    && h.currentDay == g.currentDay
    && h.currentPrice == g.currentPrice
    && h.priceHistory == g.priceHistory
    && h.players == g.players
    && h.gameOver == g.gameOver
  }

  /** The next day's price: up or down by ten percent, never below one cent,
      rounded to cents. */
  function MovePrice(price: real, isRise: bool): (r: real)
    ensures r >= PriceFloor && IsCents(r)
  {
    var change := if isRise then DailyChange else -DailyChange;
    var target := Max(PriceFloor, price * (1.0 + change));
    RoundCentsLowerBounds(target);
    RoundCents(target)
  }

  /** Every player's total assets at the new price appended to the
      player's history. */
  function RecordTotals(players: seq<Account>, price: real): (r: seq<Account>)
    ensures |r| == |players|
    ensures forall i :: 0 <= i < |players| ==>
      && r[i].cash == players[i].cash && r[i].shares == players[i].shares
      && |r[i].totalHistory| == |players[i].totalHistory| + 1
      && r[i].totalHistory[..|players[i].totalHistory|] == players[i].totalHistory
      && IsCents(r[i].totalHistory[|players[i].totalHistory|])
      && var w := Wealth(players[i], price);
         w - 0.005 < r[i].totalHistory[|players[i].totalHistory|] <= w + 0.005
  {
    seq(|players|, i requires 0 <= i < |players| =>
      players[i].(totalHistory := players[i].totalHistory + [RoundCents(Wealth(players[i], price))]))
  }

  /** Marks the game as over; the winner is `Winner`. */
  function EndGame(g: GameState): (r: GameState)
    ensures r.gameOver
    ensures SameSetup(g, r)
    ensures r.currentDay == g.currentDay && r.currentPrice == g.currentPrice
    ensures r.priceHistory == g.priceHistory && r.players == g.players
  {
    g.(gameOver := true)
  }

  /** Advances the game by one day; `isRise` is the outcome of the day's
      random draw. A finished game is left as it is. */
  function NextDay(g: GameState, isRise: bool): (r: GameState)
    ensures g.gameOver ==> r == g
    ensures SameSetup(g, r)
    ensures !g.gameOver ==>
      && r.currentPrice == MovePrice(g.currentPrice, isRise)
      && r.currentDay == g.currentDay + 1
      && r.priceHistory == g.priceHistory + [r.currentPrice]
      && r.currentPrice >= PriceFloor
      && IsCents(r.currentPrice)
      && (r.gameOver <==> r.currentDay > g.gameDays)
    ensures !g.gameOver ==>
      && |r.players| == |g.players|
      && forall i :: 0 <= i < |g.players| ==>
           && r.players[i].cash == g.players[i].cash
           && r.players[i].shares == g.players[i].shares
           && r.players[i].totalHistory
              == g.players[i].totalHistory + [RoundCents(Wealth(g.players[i], r.currentPrice))]
  {
    if g.gameOver then g
    else
      var price := MovePrice(g.currentPrice, isRise);
      var moved := g.(
        currentPrice := price,
        priceHistory := g.priceHistory + [price],
        players := RecordTotals(g.players, price),
        currentDay := g.currentDay + 1);
      if moved.currentDay > moved.gameDays then EndGame(moved) else moved
  }

  /** The final verdict: 0 if the first player ends richer, 1 if the second
      does, -1 for a tie. Totals are compared before any rounding. */
  function Winner(g: GameState): (w: int)
    requires |g.players| == 2
    ensures w == 0 <==> Wealth(g.players[0], g.currentPrice) > Wealth(g.players[1], g.currentPrice)
    ensures w == 1 <==> Wealth(g.players[1], g.currentPrice) > Wealth(g.players[0], g.currentPrice)
    ensures w == -1 <==> Wealth(g.players[0], g.currentPrice) == Wealth(g.players[1], g.currentPrice)
  {
    var t0 := Wealth(g.players[0], g.currentPrice);
    var t1 := Wealth(g.players[1], g.currentPrice);
    if t0 > t1 then 0 else if t1 > t0 then 1 else -1
  }

  /** The same game with the two players' seats exchanged. */
  function SwapPlayers(g: GameState): GameState
    requires |g.players| == 2
  {
    g.(players := [g.players[1], g.players[0]])
  }

  /** Exchanging the seats exchanges the winner, and a tie stays a tie:
      the verdict depends on the totals alone, not on seat order. */
  lemma WinnerSwap(g: GameState)
    requires |g.players| == 2
    ensures Winner(SwapPlayers(g)) == (if Winner(g) == -1 then -1 else 1 - Winner(g))
  {
  }

  /** A new day keeps a game in play valid. */
  lemma NextDayPreservesValid(g: GameState, isRise: bool)
    requires Valid(g)
    ensures Valid(NextDay(g, isRise))
  {
    if !g.gameOver {
      var r := NextDay(g, isRise);
      RoundCentsLowerBounds(r.currentPrice);
      forall i | 0 <= i < |r.players|
        ensures AccountOk(r.players[i], r.currentDay)
      {
        assert AccountOk(g.players[i], g.currentDay);
      }
    }
  }

  /** The day's price sits within half a cent of the unrounded move. */
  lemma MovePriceNearTarget(price: real, isRise: bool)
    ensures var target := Max(PriceFloor, price * (if isRise then 1.1 else 0.9));
      target - 0.005 < MovePrice(price, isRise) <= target + 0.005
  {
  }

  /** From a whole-cent price of at least one cent, a rise never lowers the
      price and a fall never raises it. */
  lemma MovePriceDirection(price: real, isRise: bool)
    requires IsCents(price) && price >= PriceFloor
    ensures isRise ==> MovePrice(price, isRise) >= price
    ensures !isRise ==> MovePrice(price, isRise) <= price
  {
    RoundCentsKeepsCents(price);
    if isRise {
      RoundCentsMonotone(price, Max(PriceFloor, price * 1.1));
    } else {
      RoundCentsMonotone(Max(PriceFloor, price * 0.9), price);
    }
  }

  /** Once the price is down to one cent it stays there: a ten percent rise
      rounds back to the same cent and a fall is stopped by the floor. */
  lemma PennyPriceIsStuck(isRise: bool)
    ensures MovePrice(PriceFloor, isRise) == PriceFloor
  {
    RoundCentsKeepsCents(PriceFloor);
    if isRise {
      var k := (PriceFloor * 1.1 * 100.0 + 0.5).Floor;
      assert k == 1;
    }
  }

  /** The game after one day per entry of `rises`. */
  function Days(g: GameState, rises: seq<bool>): GameState
    decreases |rises|
  {
    if |rises| == 0 then g else Days(NextDay(g, rises[0]), rises[1..])
  }

  /** A valid game lasts exactly `gameDays` new days: the day counter moves
      up by one a day until it passes `gameDays`, the game is over exactly
      from then on, and the game stays valid throughout. */
  lemma {:induction false} DaysCount(g: GameState, rises: seq<bool>)
    requires Valid(g)
    ensures Valid(Days(g, rises))
    ensures Days(g, rises).currentDay == Min(g.currentDay + |rises|, g.gameDays + 1)
    ensures Days(g, rises).gameOver <==> g.currentDay + |rises| > g.gameDays
    decreases |rises|
  {
    if |rises| > 0 {
      NextDayPreservesValid(g, rises[0]);
      DaysCount(NextDay(g, rises[0]), rises[1..]);
    }
  }
}

=== FILE: money.dfy ===
/** Money arithmetic of the game.

    Prices, cash and totals are plain numbers in the game; here they are
    unbounded reals, and the game's `Math.round(x * 100) / 100` is modelled
    exactly as "round half up to a whole number of cents". Binary floating
    point is not modelled. */
module Money {

  /** True when `x` is a whole number of cents. */
  predicate IsCents(x: real) {
    (x * 100.0).Floor as real == x * 100.0
  }

  /** `Math.round(x * 100) / 100`: the nearest whole number of cents,
      halves rounded up (towards positive infinity, as `Math.round` does). */
  function RoundCents(x: real): (r: real)
    ensures IsCents(r)
    ensures x - 0.005 < r <= x + 0.005
  {
    var k := (x * 100.0 + 0.5).Floor;
    assert (k as real / 100.0) * 100.0 == k as real;
    k as real / 100.0
  }

  /** `Math.max(a, b)` on numbers. */
  function Max(a: real, b: real): (r: real)
    ensures r >= a && r >= b
    ensures r == a || r == b
  {
    if a >= b then a else b
  }

  /** `Math.min(a, b)` on whole numbers. */
  function Min(a: int, b: int): (r: int)
    ensures r <= a && r <= b
    ensures r == a || r == b
  {
    if a <= b then a else b
  }

  /** `Math.floor(x)`. */
  function FloorOf(x: real): (r: int)
    ensures r as real <= x < r as real + 1.0
  {
    x.Floor
  }

  /** Rounding to cents leaves a whole number of cents alone. */
  lemma RoundCentsKeepsCents(x: real)
    requires IsCents(x)
    ensures RoundCents(x) == x
  {
    var k := (x * 100.0).Floor;
    assert x * 100.0 + 0.5 == k as real + 0.5;
    assert (x * 100.0 + 0.5).Floor == k;
  }

  /** Rounding to cents is monotone. */
  lemma RoundCentsMonotone(x: real, y: real)
    requires x <= y
    ensures RoundCents(x) <= RoundCents(y)
  {
    var a := (x * 100.0 + 0.5).Floor;
    var b := (y * 100.0 + 0.5).Floor;
    assert a as real <= y * 100.0 + 0.5;
    assert a <= b;
  }

  /** A non-negative amount rounds to a non-negative amount, and an amount
      of at least one cent rounds to at least one cent. */
  lemma RoundCentsLowerBounds(x: real)
    ensures x >= 0.0 ==> RoundCents(x) >= 0.0
    ensures x >= 0.01 ==> RoundCents(x) >= 0.01
  {
    if x >= 0.0 {
      RoundCentsMonotone(0.0, x);
      RoundCentsKeepsCents(0.0);
    }
    if x >= 0.01 {
      RoundCentsMonotone(0.01, x);
      RoundCentsKeepsCents(0.01);
    }
  }
}

=== FILE: setup.dfy ===
/** Starting a game from the setup form (game.js `startGame`): read the four
    numbers, validate them, and initialise the game record. */
module Setup {
  import opened Wrappers
  import opened Game

  /** The form's four fields after `parseFloat`/`parseInt`; `None` is NaN. */
  datatype SetupForm = SetupForm(
    initialPrice: Option<real>,
    gameDays: Option<int>,
    initialFunds: Option<real>,
    riseProbability: Option<real>)

  /** The four numbers a game is started with. */
  datatype Settings = Settings(
    initialPrice: real,
    gameDays: int,
    initialFunds: real,
    riseProbability: real)

  const DefaultPrice: real := 100.0
  const DefaultDays: int := 30
  const DefaultFunds: real := 10000.0
  const DefaultRiseProbability: real := 50.0

  /** `parsed || fallback` on a parsed number: NaN and 0 are both falsy,
      so both give way to the fallback; any other number is kept. */
  function OrElse(parsed: Option<real>, fallback: real): (r: real)
    ensures parsed.Some? && parsed.value != 0.0 ==> r == parsed.value
    ensures parsed.None? || parsed == Some(0.0) ==> r == fallback
  {
    match parsed
    case Some(x) => if x != 0.0 then x else fallback
    case None => fallback
  }

  /** `parsed || fallback` on a parsed integer. */
  function OrElseInt(parsed: Option<int>, fallback: int): (r: int)
    ensures parsed.Some? && parsed.value != 0 ==> r == parsed.value
    ensures parsed.None? || parsed == Some(0) ==> r == fallback
  {
    match parsed
    case Some(x) => if x != 0 then x else fallback
    case None => fallback
  }

  /** The form as the page reads it: every field defaulted with `||`. */
  function ReadSetupAsWritten(f: SetupForm): (s: Settings)
    ensures f.riseProbability.Some? && f.riseProbability.value != 0.0 ==>
      s.riseProbability == f.riseProbability.value
    ensures f.riseProbability.None? || f.riseProbability == Some(0.0) ==>
      s.riseProbability == DefaultRiseProbability
    ensures f.gameDays.Some? && f.gameDays.value != 0 ==> s.gameDays == f.gameDays.value
    ensures f.gameDays.None? || f.gameDays == Some(0) ==> s.gameDays == DefaultDays
    ensures f.initialPrice.Some? && f.initialPrice.value != 0.0 ==>
      s.initialPrice == f.initialPrice.value
    ensures f.initialPrice.None? || f.initialPrice == Some(0.0) ==> s.initialPrice == DefaultPrice
    ensures f.initialFunds.Some? && f.initialFunds.value != 0.0 ==>
      s.initialFunds == f.initialFunds.value
    ensures f.initialFunds.None? || f.initialFunds == Some(0.0) ==> s.initialFunds == DefaultFunds
  {
    Settings(
      OrElse(f.initialPrice, DefaultPrice),
      OrElseInt(f.gameDays, DefaultDays),
      OrElse(f.initialFunds, DefaultFunds),
      OrElse(f.riseProbability, DefaultRiseProbability))
  }

  /** A rise probability of 0 is inside the range the validation accepts,
      yet the page's reading replaces it by 50 before validation sees it. */
  lemma ZeroRiseProbabilityIsLost(f: SetupForm)
    requires f.riseProbability == Some(0.0)
    ensures ProbabilityInRange(0.0)
    ensures ReadSetupAsWritten(f).riseProbability == DefaultRiseProbability != 0.0
  {
  }

  /** The settings stored in a game record. */
  function SettingsOf(g: GameState): Settings {
    Settings(g.initialPrice, g.gameDays, g.initialFunds, g.riseProbability)
  }

  /** The record the page holds before any start is not yet a game (it has
      no price history). A form left blank reads as exactly the settings
      that record holds, and starting with them succeeds: a valid game on
      day 1 at the record's price, each player holding the record's cash. */
  lemma BlankFormStartsDefaultGame()
    ensures !Valid(Unstarted)
    ensures ReadSetupAsWritten(SetupForm(None, None, None, None)) == SettingsOf(Unstarted)
    ensures var r := StartGame(Unstarted, SettingsOf(Unstarted));
      && r.error.None? && Valid(r.state) && SameSetup(Unstarted, r.state)
      && r.state.currentDay == Unstarted.currentDay
      && r.state.currentPrice == Unstarted.currentPrice
      && forall who :: 0 <= who < 2 ==> r.state.players[who].cash == Unstarted.players[who].cash
  {
  }

  /** The form read with the rise probability defaulted only when it is
      unreadable; the other three fields are read as the page reads them
      (a 0 there is not a valid value anyway). */
  function ReadSetup(f: SetupForm): (s: Settings)
    ensures f.riseProbability.Some? ==> s.riseProbability == f.riseProbability.value
    ensures f.riseProbability.None? ==> s.riseProbability == DefaultRiseProbability
    ensures s.initialPrice == ReadSetupAsWritten(f).initialPrice
    ensures s.gameDays == ReadSetupAsWritten(f).gameDays
    ensures s.initialFunds == ReadSetupAsWritten(f).initialFunds
  {
    Settings(
      OrElse(f.initialPrice, DefaultPrice),
      OrElseInt(f.gameDays, DefaultDays),
      OrElse(f.initialFunds, DefaultFunds),
      f.riseProbability.GetOr(DefaultRiseProbability))
  }

  /** Every rise probability typed in the accepted range, 0 included,
      reaches the validation unchanged. */
  lemma ReadSetupKeepsProbability(f: SetupForm, p: real)
    requires f.riseProbability == Some(p) && ProbabilityInRange(p)
    ensures ReadSetup(f).riseProbability == p
    ensures ProbabilityInRange(ReadSetup(f).riseProbability)
  {
  }

  predicate ProbabilityInRange(p: real) {
    0.0 <= p <= 100.0
  }

  datatype StartError =
    | NotPositive             // a price, day count or fund amount that is not positive
    | ProbabilityOutOfRange   // a rise probability outside 0..100

  /** The record after a start attempt, and the error shown, if any. */
  datatype Started = Started(state: GameState, error: Option<StartError>)

  /** A player at the start of a game: all cash, no shares, and the cash
      recorded as the first day's total. */
  function Fresh(funds: real): Account {
    Account(funds, 0, [funds])
  }

  /** Starts a game with settings `s`. The settings are stored in the record
      before they are validated, so even a rejected start leaves them there;
      the game in play is then left as it was. */
  function StartGame(g: GameState, s: Settings): (r: Started)
    ensures r.state.initialPrice == s.initialPrice && r.state.gameDays == s.gameDays
    ensures r.state.initialFunds == s.initialFunds && r.state.riseProbability == s.riseProbability
    ensures r.error == Some(NotPositive) <==>
      s.initialPrice <= 0.0 || s.gameDays <= 0 || s.initialFunds <= 0.0
    ensures r.error == Some(ProbabilityOutOfRange) <==>
      s.initialPrice > 0.0 && s.gameDays > 0 && s.initialFunds > 0.0 && !ProbabilityInRange(s.riseProbability)
    ensures r.error.Some? ==> SamePlay(g, r.state)
    ensures r.error.None? ==>
      && Valid(r.state)
      && r.state.currentDay == 1
      && r.state.currentPrice == s.initialPrice
      && r.state.priceHistory == [s.initialPrice]
      && r.state.players == [Fresh(s.initialFunds), Fresh(s.initialFunds)]
      && !r.state.gameOver
  {
    var stored := g.(
      initialPrice := s.initialPrice,
      gameDays := s.gameDays,
      initialFunds := s.initialFunds,
      riseProbability := s.riseProbability);
    if s.initialPrice <= 0.0 || s.gameDays <= 0 || s.initialFunds <= 0.0 then
      Started(stored, Some(NotPositive))
    else if s.riseProbability < 0.0 || s.riseProbability > 100.0 then
      Started(stored, Some(ProbabilityOutOfRange))
    else
      Started(stored.(
        currentDay := 1,
        currentPrice := s.initialPrice,
        priceHistory := [s.initialPrice],
        gameOver := false,
        players := [Fresh(s.initialFunds), Fresh(s.initialFunds)]), None)
  }
}

=== FILE: trade.dfy ===
/** Buying and selling shares (game.js `executeTrade`): a request, given as
    a number of shares or as an amount of money, is turned into a whole
    number of shares, clamped to what the player can afford or holds, and
    settled at the current price. */
module Trade {
  import opened Money
  import opened Game

  datatype Action = Buy | Sell
  /** How the request's value is meant: a share count or a money amount. */
  datatype Quantity = ByShares | ByAmount

  datatype TradeError =
    | GameIsOver          // silently ignored by the page
    | NotPositive         // the value typed is not a positive number
    | NoWholeShare        // the request comes to less than one share
    | InsufficientFunds   // the buyer cannot afford a single share
    | NothingToSell       // the seller holds no shares

  /** A settled trade with the number of shares moved, or the reason the
      request was refused (the record is then left as it was). */
  datatype TradeResult = Traded(state: GameState, shares: int) | Refused(reason: TradeError)

  /** The record after a trade attempt. */
  function StateAfter(g: GameState, r: TradeResult): GameState {
    match r
    case Traded(s, _) => s
    case Refused(_) => g
  }

  /** The whole number of shares a request asks for. */
  function RequestedShares(q: Quantity, value: real, price: real): (n: int)
    requires price > 0.0
    ensures q == ByShares ==> n as real <= value < n as real + 1.0
    ensures q == ByAmount ==> n == Affordable(value, price)
  {
    match q
    case ByShares => FloorOf(value)
    case ByAmount => FloorOf(value / price)
  }

  /** The largest whole number of shares `cash` pays for at `price`. */
  function Affordable(cash: real, price: real): (n: int)
    requires price > 0.0
    ensures n as real * price <= cash
    ensures (n + 1) as real * price > cash
  {
    var n := FloorOf(cash / price);
    assert n as real <= cash / price < n as real + 1.0;
    MulBelow(n as real, cash, price);
    MulAbove(n as real + 1.0, cash, price);
    n
  }

  lemma MulBelow(a: real, b: real, p: real)
    requires p > 0.0 && a <= b / p
    ensures a * p <= b
  {
    assert a * p <= (b / p) * p;
  }

  lemma MulAbove(a: real, b: real, p: real)
    requires p > 0.0 && b / p < a
    ensures b < a * p
  {
    assert (b / p) * p < a * p;
  }

  /** `n` shares at `price` cost at least `price` when `n` is positive. */
  lemma AtLeastOneShare(n: int, price: real)
    requires n >= 1 && price > 0.0
    ensures n as real * price >= price
  {
    assert n as real * price == price + (n - 1) as real * price;
  }

  /** The shares the page settles for once a request of `wanted` shares
      has been made; zero or less means the request is refused. A purchase
      is cut down to what the cash pays for, a sale to the shares held. */
  function Fill(action: Action, wanted: int, p: Account, price: real): (n: int)
    requires wanted > 0 && price > 0.0
    ensures n <= wanted
    ensures action == Buy ==> (n > 0 <==> p.cash >= price)
    ensures action == Sell ==> (n > 0 <==> p.shares > 0)
    ensures action == Buy && n > 0 ==>
      n as real * price <= p.cash && (n < wanted ==> (n + 1) as real * price > p.cash)
    ensures action == Sell ==> n <= p.shares || n == wanted
    ensures action == Sell && n > 0 ==> n <= p.shares && (n < wanted ==> n == p.shares)
  {
    match action
    case Buy =>
      AtLeastOneShare(wanted, price);
      if wanted as real * price > p.cash then
        var n := Affordable(p.cash, price);
        assert n <= 0 ==> p.cash < price;
        assert p.cash < price ==> n <= 0 by {
          if p.cash < price && n >= 1 { AtLeastOneShare(n, price); }
        }
        n
      else wanted
    case Sell =>
      if wanted > p.shares then p.shares else wanted
  }

  /** Moves `moved` shares into player `who`'s holdings (out of them when
      negative) at the current price, rounds the new cash to cents, and
      overwrites the player's total for the current day with the new total. */
  function Settle(g: GameState, who: nat, moved: int): (r: GameState)
    requires who < |g.players| && |g.players[who].totalHistory| > 0
    ensures |r.players| == |g.players|
    ensures r == g.(players := g.players[who := r.players[who]])
    ensures var p := g.players[who];
      var a := r.players[who];
      && a.shares == p.shares + moved
      && a.cash == RoundCents(p.cash - moved as real * g.currentPrice)
      && |a.totalHistory| == |p.totalHistory|
      && a.totalHistory[..|p.totalHistory| - 1] == p.totalHistory[..|p.totalHistory| - 1]
      && a.totalHistory[|p.totalHistory| - 1] == RoundCents(Wealth(a, g.currentPrice))
  {
    var p := g.players[who];
    var c := RoundCents(p.cash - moved as real * g.currentPrice);
    var n := p.shares + moved;
    var h := p.totalHistory;
    var a := Account(c, n, h[|h| - 1 := RoundCents(c + n as real * g.currentPrice)]);
    assert Wealth(a, g.currentPrice) == c + n as real * g.currentPrice;
    assert a.totalHistory[..|h| - 1] == h[..|h| - 1];
    var r := g.(players := g.players[who := a]);
    assert r.players[who] == a;
    r
  }

  /** The page's verdict on a request, before anything changes: the
      number of shares to move, or the reason for refusing. */
  datatype Quote = Accept(shares: int) | Reject(reason: TradeError)

  /** The checks of a trade request, in the order the page makes them, for
      a player holding `p` in a game at `price`. */
  function QuoteTrade(gameOver: bool, p: Account, price: real, action: Action, q: Quantity, value: real): (r: Quote)
    requires price > 0.0
    ensures r == Reject(GameIsOver) <==> gameOver
    ensures r == Reject(NotPositive) <==> !gameOver && value <= 0.0
    ensures r == Reject(NoWholeShare) <==>
      !gameOver && value > 0.0 && RequestedShares(q, value, price) <= 0
    ensures r == Reject(InsufficientFunds) <==>
      !gameOver && value > 0.0 && RequestedShares(q, value, price) > 0 && action == Buy && p.cash < price
    ensures r == Reject(NothingToSell) <==>
      !gameOver && value > 0.0 && RequestedShares(q, value, price) > 0 && action == Sell && p.shares <= 0
    ensures r.Accept? <==>
      && !gameOver && value > 0.0 && RequestedShares(q, value, price) > 0
      && (action == Buy ==> p.cash >= price)
      && (action == Sell ==> p.shares > 0)
    ensures r.Accept? ==> r.shares > 0 && r.shares == Fill(action, RequestedShares(q, value, price), p, price)
  {
    if gameOver then Reject(GameIsOver)
    else if value <= 0.0 then Reject(NotPositive)
    else
      var wanted := RequestedShares(q, value, price);
      if wanted <= 0 then Reject(NoWholeShare)
      else
        var n := Fill(action, wanted, p, price);
        if n <= 0 then Reject(if action == Buy then InsufficientFunds else NothingToSell)
        else Accept(n)
  }

  /** The change in the player's share count when `n` shares are traded. */
  function Moved(action: Action, n: int): int {
    if action == Buy then n else -n
  }

  /** Player `who` (0 or 1) trades: `action` with a request of `value`,
      read as shares or as money according to `q`. A refused request
      changes nothing; an accepted one is settled for that player alone. */
  function ExecuteTrade(g: GameState, who: nat, action: Action, q: Quantity, value: real): (r: TradeResult)
    requires who < |g.players| && g.currentPrice > 0.0
    requires |g.players[who].totalHistory| > 0
    ensures var v := QuoteTrade(g.gameOver, g.players[who], g.currentPrice, action, q, value);
      && (r.Refused? <==> v.Reject?)
      && (r.Refused? ==> r.reason == v.reason)
      && (r.Traded? ==> r.shares == v.shares && r.state == Settle(g, who, Moved(action, r.shares)))
  {
    match QuoteTrade(g.gameOver, g.players[who], g.currentPrice, action, q, value)
    case Reject(e) => Refused(e)
    case Accept(n) => Traded(Settle(g, who, Moved(action, n)), n)
  }

  /** Exchanging shares for cash at the current price leaves the player's
      total assets as they were, up to the rounding of the cash to cents:
      they move by at most half a cent. */
  lemma SettleConservesWealth(g: GameState, who: nat, moved: int)
    requires who < |g.players| && |g.players[who].totalHistory| > 0
    ensures var w := Wealth(g.players[who], g.currentPrice);
      var a := Settle(g, who, moved).players[who];
      w - 0.005 < Wealth(a, g.currentPrice) <= w + 0.005
  {
    var p := g.players[who];
    var a := Settle(g, who, moved).players[who];
    var price := g.currentPrice;
    var unrounded := p.cash - moved as real * price;
    assert a.shares as real * price == p.shares as real * price + moved as real * price;
    assert unrounded + a.shares as real * price == Wealth(p, price);
  }

  /** A trade moves the player's total assets by at most half a cent. */
  lemma TradeConservesWealth(g: GameState, who: nat, action: Action, q: Quantity, value: real)
    requires who < |g.players| && g.currentPrice > 0.0
    requires |g.players[who].totalHistory| > 0
    ensures var a := StateAfter(g, ExecuteTrade(g, who, action, q, value)).players[who];
      var w := Wealth(g.players[who], g.currentPrice);
      w - 0.005 < Wealth(a, g.currentPrice) <= w + 0.005
  {
    var r := ExecuteTrade(g, who, action, q, value);
    if r.Traded? {
      SettleConservesWealth(g, who, Moved(action, r.shares));
    }
  }

  /** Settling a movement the player can cover keeps the holdings
      non-negative. */
  lemma SettleKeepsHoldings(g: GameState, who: nat, moved: int)
    requires who < |g.players| && |g.players[who].totalHistory| > 0
    requires g.players[who].cash - moved as real * g.currentPrice >= 0.0
    requires g.players[who].shares + moved >= 0
    ensures Settle(g, who, moved).players[who].cash >= 0.0
    ensures Settle(g, who, moved).players[who].shares >= 0
  {
    RoundCentsLowerBounds(g.players[who].cash - moved as real * g.currentPrice);
  }

  /** The shares the page settles for are covered: a purchase costs no
      more than the cash, a sale sells no more than the shares held, so
      settling them keeps the player's holdings non-negative. */
  lemma FillIsCovered(g: GameState, who: nat, action: Action, wanted: int)
    requires who < |g.players| && |g.players[who].totalHistory| > 0
    requires wanted > 0 && g.currentPrice > 0.0
    requires g.players[who].cash >= 0.0 && g.players[who].shares >= 0
    requires Fill(action, wanted, g.players[who], g.currentPrice) > 0
    ensures var a := Settle(g, who, Moved(action, Fill(action, wanted, g.players[who], g.currentPrice))).players[who];
      a.cash >= 0.0 && a.shares >= 0
  {
    var p := g.players[who];
    var price := g.currentPrice;
    var n := Fill(action, wanted, p, price);
    if action == Sell {
      assert (-n) as real * price == -(n as real * price);
      assert n as real * price >= 0.0;
    }
    SettleKeepsHoldings(g, who, Moved(action, n));
  }

  /** A trade never leaves a player with negative cash or shares. */
  lemma TradeKeepsHoldingsNonNegative(g: GameState, who: nat, action: Action, q: Quantity, value: real)
    requires who < |g.players| && g.currentPrice > 0.0
    requires |g.players[who].totalHistory| > 0
    requires g.players[who].cash >= 0.0 && g.players[who].shares >= 0
    ensures var s := StateAfter(g, ExecuteTrade(g, who, action, q, value));
      s.players[who].cash >= 0.0 && s.players[who].shares >= 0
  {
    var r := ExecuteTrade(g, who, action, q, value);
    if r.Traded? {
      FillIsCovered(g, who, action, RequestedShares(q, value, g.currentPrice));
    }
  }

  /** Once the game is over, neither a new day nor a trade changes the
      record. */
  lemma OverGameIsFrozen(g: GameState, isRise: bool, who: nat, action: Action, q: Quantity, value: real)
    requires g.gameOver && who < |g.players| && g.currentPrice > 0.0
    requires |g.players[who].totalHistory| > 0
    ensures NextDay(g, isRise) == g
    ensures ExecuteTrade(g, who, action, q, value) == Refused(GameIsOver)
    ensures StateAfter(g, ExecuteTrade(g, who, action, q, value)) == g
  {
  }

  /** A trade keeps a game in play valid: it changes neither the day, the
      price nor any history's length. */
  lemma TradePreservesValid(g: GameState, who: nat, action: Action, q: Quantity, value: real)
    requires Valid(g) && who < |g.players|
    ensures Valid(StateAfter(g, ExecuteTrade(g, who, action, q, value)))
  {
    assert AccountOk(g.players[who], g.currentDay);
    var s := StateAfter(g, ExecuteTrade(g, who, action, q, value));
    TradeKeepsHoldingsNonNegative(g, who, action, q, value);
    forall i | 0 <= i < |s.players|
      ensures AccountOk(s.players[i], s.currentDay)
    {
      assert AccountOk(g.players[i], g.currentDay);
    }
  }
}

=== FILE: wrappers.dfy ===
/** Optional values, used for numbers read from text fields: `None` stands
    for the `NaN` that `parseFloat`/`parseInt` return on unreadable input. */
module Wrappers {

  datatype Option<+T> = None | Some(value: T) {

    /** The wrapped value, or `default` when there is none. */
    function GetOr(default: T): T {
      match this
      case Some(v) => v
      case None => default
    }
  }
}
